=== FILE: README.md ===
# pisces routing core, modelled in Dafny

pisces is a small WSGI micro-framework. A `Router` holds `Route`s. Each route
maps a URL template such as `/<one>/and/<two>` to a method on an instance.
`AppContainer.wsgi_app` takes the first route that handles the request path
and HTTP method. It binds the URL captures, and it binds further handler
parameters by a naming convention: `get__foo` reads query parameter `foo`,
`post__foo` reads form field `foo`, `cookie__foo` reads cookie `foo`. It then
calls the handler. Keys of the returned dict that carry a consumer prefix
(`cookie__...`) are applied to the response and removed. The rest of the
dict becomes the JSON body.

The model is functional. It has one module per concern:

- `Template` (template.dfy): tokenising a template into literal characters
  and `<name>` placeholders; the group-name checks that make
  `re.compile` fail (a group name must be an ASCII identifier, as Python
  2's `sre_parse.isname` requires); the anchored matcher. The matcher reproduces the
  backtracking engine's result for `(?P<name>.*)` groups: each placeholder
  takes the longest text for which the rest of the pattern still matches.
  Its partner is `Fill`, which puts captures back into the template.
- `Routing` (routing.dfy): `Route` construction, `handles_route`, `handle`
  and `Router.match`.
- `Naming` (naming.dfy): splitting a name on its first `__`.
- `Registry` (registry.dfy): requests, the providers (`GetProvider`,
  `PostProvider`, and `CookieHandler` in its provider role, which is the
  `cookie` provider the default app registers), the cookie consumer,
  and the prefix tables `AppContainer` builds.
- `Binding` (binding.dfy): `_extract_params_from_request`.
- `Mutation` (mutation.dfy): `apply_consumer_mutations` with the
  `CookieHandler` consumer.
- `AppContainer` (dispatch.dfy): the control flow of `wsgi_app`.
- `UnitCases` (unit_cases.dfy): the behaviour the repository's unit tests
  pin down, proved of the model.

A Python dict is a sequence of entries with distinct keys, in iteration
order. A response is its cookie directives plus its body dict. The handler
is abstract. `argspec` stands for what `inspect.getargspec` reports of it.
`invoke` stands for calling it. Both are parameters of `Dispatch`.

A placeholder becomes the group `(?P<name>.*)`, so it matches zero or more
characters: `/<test>` matches `/`.

The semantics followed are Python 2's, which the source targets. In
particular `dict.items()` returns a copy, so `apply_consumer_mutations` may
delete consumed keys while it walks the dict; under Python 3 the next step
of that loop would raise `RuntimeError`.

Where the code and its documentation disagree, the model follows the code:

- `CookieHandler.set_value` with a non-`None` value sets the handler's own
  cookie (`pisces_cookie` by default), not the cookie named by the key.
  The `ResponseConsumer` docstring says `cookie__foo` sets cookie `foo`.
  A `None` value does delete cookie `key`.

The source does not escape literal template text before compiling it, so a
metacharacter in it acts as regular-expression syntax. The model assumes
literal text holds no metacharacters and matches it character by character
(see "## Left out").

## Model

| member | source | states |
|---|---|---|
| Template.CloseIndex | pisces/__init__.py:62 | the non-greedy `<.*?>` closes a placeholder at the first `>` after the `<`, provided no newline comes before it; when it returns nothing, every `>` has a newline before it |
| Template.UnparseParse | pisces/__init__.py:62 | tokenising loses nothing: writing the tokens back gives the template text |
| Template.ParseUnparse | pisces/__init__.py:62 | tokens without a literal `<` and with no `>` or newline in a name are tokenised back to themselves from their text |
| Template.Compile | pisces/__init__.py:58-63 | compiling succeeds exactly when the tokens are well formed, and then yields those tokens; a compiled template has valid, pairwise distinct group names, and at most 99 of them, since `sre_compile` counts group 0 against its limit of 100 |
| Template.CompileRoundTrip | pisces/__init__.py:58-63 | the compiled template writes back as its source text; every well-formed template without a literal `<` compiles back from its text |
| Template.CompileLiteral | pisces/__init__.py:58-63 | text without `<` compiles to itself as literal characters |
| Template.MatchHoleSpec | pisces/__init__.py:60-63 | a placeholder takes the longest prefix (up to the bound) after which the rest matches; no match when no prefix works |
| Template.MatchSound | pisces/__init__.py:50-56 | a match's captures are exactly the placeholder names, and filling them in rebuilds the path |
| Template.MatchComplete | pisces/__init__.py:50-56 | every filling of the placeholders is matched |
| Template.MatchIff | pisces/__init__.py:50-56 | a path matches if and only if it is some filling of the template |
| Template.MatchIsGreedy | pisces/__init__.py:60-62 | a leading placeholder captures a prefix of the path, and no longer prefix lets the rest match |
| Template.HoleTakesLongest | pisces/__init__.py:60-62 | when the longest workable split is known, the captures are the rest's captures plus that prefix |
| Template.LiteralMatchesExactly | pisces/__init__.py:62-63 | a template without placeholders matches only its own text, with no captures; the anchors rule out longer paths |
| Template.MatchLiteralPrefix | pisces/__init__.py:62-63 | literal text consumes exactly itself from the front of the path |
| Template.MatchChar | pisces/__init__.py:62-63 | a literal character consumes exactly the same character of the path |
| Template.MatchLastHole | pisces/__init__.py:60-63 | a trailing placeholder captures the whole remaining path |
| Template.UnparseAppend | pisces/__init__.py:62 | the text of a concatenation of tokens is the concatenation of their texts |
| Template.NamesAppend | pisces/__init__.py:62 | the placeholders of a concatenation are those of each part in order |
| Routing.NewRoute | pisces/__init__.py:33-41 | a route exists exactly when its template tokenises to valid, distinct names that fit the group limit; it keeps the URL and the callback, its template writes back as the URL, and a missing method list means `ALL_METHODS` |
| Routing.Handle | pisces/__init__.py:65-73 | `AttributeError` exactly when the callback is missing; `TypeError` exactly when it exists but the path does not match (`**None`); otherwise the route's own callback bound to the captures of matching the path |
| Routing.HandlesRouteIff | pisces/__init__.py:43-44 | a route handles a request if and only if the path is a filling of its template and the method is accepted |
| Routing.LiteralRoute | pisces/__init__.py:33-44 | a URL without `<` always makes a route, and it handles exactly its own text with an accepted method |
| Routing.DefaultMethods | pisces/__init__.py:10 | without a method list a route accepts exactly GET and POST; a POST-only route turns GET away |
| Routing.HandleBinds | pisces/__init__.py:65-73 | on any constructed route, a successful `handle` binds the route's own callback to one capture per placeholder, and those captures put back into the template rebuild the path |
| Routing.RouterMatch | pisces/__init__.py:22-25 | no result if and only if no route handles the request; otherwise the result of `handle` on the first route that does |
| Routing.RouterMatchBinds | pisces/__init__.py:22-25 | when the router picks a route, binding never fails on the path, and the captures are exactly the chosen route's names and rebuild the path |
| Naming.SplitFirst | pisces/__init__.py:251 | nothing if and only if the name has no `__`; otherwise prefix + `__` + key is the name and the separator is the first one |
| Naming.PrefixHasNoSeparator | pisces/__init__.py:251 | the prefix of a split never holds `__` |
| Naming.SplitJoin | pisces/__init__.py:251 | joining a prefix without `__` and not ending in `_` to a key, then splitting, gives them back |
| Registry.Lookup | pisces/__init__.py:108-109 | `dict.get`: the stored value when the key is present, `None` otherwise |
| Registry.CookieSetValue | pisces/__init__.py:170-175 | `None` marks cookie `key` deleted; a value sets the handler's own cookie name; nothing else changes |
| Registry.Table | pisces/__init__.py:244-246 | the prefix table has exactly the items' prefixes as keys, each mapped to the last item with that prefix |
| Registry.TableAt | pisces/__init__.py:244-246 | an item whose prefix no other item shares is what the table holds under that prefix |
| Binding.Signature | pisces/__init__.py:230-239 | the signature holds every named parameter and every single letter of the `**` parameter's name, and nothing else |
| Binding.ExtractParamsSpec | pisces/__init__.py:241-257 | a name is bound if and only if it is declared, not a URL capture, not `self`, and its text before the first `__` names a provider; it is bound to that provider's answer for the text after |
| Binding.ExtractParamsKeys | pisces/__init__.py:241-242 | bound names lie within the declared names minus the URL captures minus `self` |
| Binding.NoSeparatorNeverBound | pisces/__init__.py:250-256 | a name without `__` is never bound |
| Binding.KeywordLettersNeverBound | pisces/__init__.py:238-239 | adding the letters of the `**` parameter's name to the signature changes nothing |
| Binding.ExtraNamesUnbound | pisces/__init__.py:241-257 | widening the signature by names that are never bound leaves the binding as it was |
| Binding.ExtractSingle | pisces/__init__.py:249-254 | a one-name signature whose name is bindable binds exactly that name to its provider's answer |
| Binding.ExtractNothing | pisces/__init__.py:249-256 | a signature with no bindable name binds nothing |
| Mutation.Mutate | pisces/__init__.py:269-278 | an entry stays in the body if and only if it was in the dict and no registered consumer claims its prefix; keys stay distinct |
| Mutation.MutateKeeps | pisces/__init__.py:270-273 | an unclaimed entry stays at the front of the body and leaves the cookies alone |
| Mutation.MutateConsumes | pisces/__init__.py:274-276 | a claimed entry leaves the body and is handed to its consumer with the key's text after `__` |
| Mutation.CookieTable | pisces/__init__.py:265-267 | the default consumer table maps `cookie` to the cookie handler and nothing else |
| Mutation.CookieHandlerNames | pisces/__init__.py:170-175 | a cookie is on the response if and only if it was already there, a `None` entry deletes it, or it is the handler's own cookie and some `cookie__` entry has a value |
| Mutation.CookieHandlerValues | pisces/__init__.py:170-175 | every cookie on the response is untouched, deleted by a `None` entry naming it, or the handler's own cookie set to some entry's value |
| Mutation.CookieHandlerDeletes | pisces/__init__.py:172-173 | a `cookie__c` entry with `None` leaves cookie `c` deleted, for any `c` other than the handler's own cookie |
| Mutation.CookieUntouched | pisces/__init__.py:170-175 | a cookie no entry targets keeps its state |
| AppContainer.Kwargs | pisces/__init__.py:204-206 | the handler's keywords are the captures and the extracted parameters; extracted values win on a clash |
| AppContainer.Respond | pisces/__init__.py:207-214 | a response exists if and only if the handler returned a dict; it is JSON, its body is the dict minus the consumed entries, and its cookies are those the consumers set while walking the dict |
| AppContainer.DefaultResponseCookies | pisces/__init__.py:207-214 | with the default `CookieHandler`, a response carries exactly the cookies the dict's `cookie__` entries delete, plus `pisces_cookie` set to some entry's value when any entry has one |
| AppContainer.FirstSome | pisces/__init__.py:197-201 | the first present element, with every earlier one absent; nothing if and only if all are absent |
| AppContainer.Dispatch | pisces/__init__.py:192-216 | `NotFound` if and only if every router passes the request on; otherwise the outcome of the first router that does not |
| AppContainer.CapturesReachHandler | pisces/__init__.py:226-228 | every URL capture reaches the handler under its own name, unchanged |
| AppContainer.RespondedBody | pisces/__init__.py:199-215 | every response is built from the dict of the handler of a route some router matched |
| AppContainer.DispatchedCookies | pisces/__init__.py:197-216 | every response a default `AppContainer` sends carries exactly the cookies asked for by the dict of the handler some router matched |
| AppContainer.UnknownMethodNotFound | pisces/__init__.py:197-216 | a method no route accepts ends in `NotFound` |
| AppContainer.NoneResultIsNotFound | pisces/__init__.py:200-216 | with the single router `AppContainer` holds, a handler returning `None` ends in `NotFound` |
| UnitCases.CompileSingleHole | pisces/test.py:12-15 | `/<test>` compiles to a slash and one placeholder |
| UnitCases.SingleHoleCaptures | pisces/test.py:28-33 | `/<test>` captures `something_here` from `/something_here` |
| UnitCases.SingleHoleRejectsNope | pisces/test.py:70-74 | `/<test>` does not match `nope` |
| UnitCases.CompileTwoHoles | pisces/test.py:35-37 | `/<one>/and/<two>` compiles to two placeholders around `/and/` |
| UnitCases.TwoHolesCapture | pisces/test.py:35-40 | `/bill/and/ted` binds `one` to `bill` and `two` to `ted` |
| UnitCases.LiteralRouteMatchesItself | pisces/test.py:17-20 | `/testing/` handles itself |
| UnitCases.RootRejectsLongerPath | pisces/test.py:76-79 | `/` does not handle `/NB2HI4B2F4XWO33PM5WGKLTDN5WQ====` |
| UnitCases.LiteralRouteRejectsOther | pisces/test.py:47-50 | `/test` does not handle `/nottest` |
| UnitCases.PostOnlyRejectsGet | pisces/test.py:52-55 | a POST-only route does not handle GET |
| UnitCases.MissingCallbackRaises | pisces/test.py:98-104 | handling with a missing callback raises `AttributeError` |
| UnitCases.CallbackReceivesCapture | pisces/test.py:81-96 | the bound callback receives `test` = `foo` for `/foo` |
| UnitCases.EmptyRouterMatchesNothing | pisces/test.py:201-203 | an empty router matches nothing |
| UnitCases.GetParamBound | pisces/test.py:158-165 | `get__foo` is bound to query parameter `foo` |
| UnitCases.PostParamBound | pisces/test.py:167-174 | `post__foo` is bound to form field `foo` |
| UnitCases.PostParamIgnoresQuery | pisces/test.py:176-185 | `post__foo` is bound to `None` when only the query holds `foo` |
| UnitCases.UnprefixedParamsIgnored | pisces/test.py:122-156 | `self`, `something` and `something__here` are not bound |
| UnitCases.CookieDirectiveSetsOwnCookie | pisces/__init__.py:170-175 | `cookie__token` = `abc` leaves the body and sets `pisces_cookie` to `abc`; `url` stays in the body |
| UnitCases.CookieDirectiveDeletes | pisces/__init__.py:172-173 | `cookie__token` = `None` leaves the body and deletes cookie `token` |

## Left out

- werkzeug's `Request` and `Response`, the WSGI `start_response` call and
  `json.dumps`: the request is its path, method, query, form and cookies;
  the body is the remaining dict, not JSON text.
- Logging: it has no effect on the result.
- `inspect.getargspec`, `getattr` and `functools.partial` are not modelled
  as reflection. The argspec is an input function, a callback is an
  `Option` (`None` when missing), and calling a handler is an input
  function. Exceptions a handler raises are not modelled.
- Regular-expression metacharacters in literal template text: the source
  does not escape them, and its own test of this is skipped. Literal text
  is matched literally here.
- Newlines in paths: `.` and `$` treat a newline specially in Python. The
  model matches as if paths hold no newline. Tokenising does honour the
  newline rule of `<.*?>`.
- Which of several `cookie__` keys is applied last depends on dict
  iteration order. The dict is modelled as an ordered entry sequence, so
  the order is an input.
- The text of the `Set-Cookie` headers: a cookie directive is "set to a
  value" or "deleted".
- Repeated directives for one cookie: werkzeug's `set_cookie` and
  `delete_cookie` add one `Set-Cookie` header per call, so
  `cookie__a: "1", cookie__b: "2"` sends two `pisces_cookie` headers. The
  model keeps one state per cookie name, the last directive's, which is
  the one a browser ends up with.
- `Route._compile_regex` raising on a bad group name, or on more than 100
  groups (Python 2's `sre_compile` limit, group 0 included), is modelled as
  `None` from `Compile` and `NewRoute`, not as an exception.
- Handler results that are not a dict of string keys to strings or `None`:
  a non-dict result fails at `json_obj.items()` and a non-string key at
  `key.split`, both with `AttributeError`, and other JSON values are not
  representable; the handler's result is an `Option<Dict>` here.
- Calling `Router()` without endpoints is a Python `TypeError` at the call
  site; `Router` always has an endpoint sequence here.

=== FILE: binding.dfy ===
/**
 `AppContainer._extract_params_from_request`: binding handler parameters
 from the request by naming convention.

 The handler's parameter names come from `inspect.getargspec`; here the
 argspec is an input. Every name that is neither a URL capture nor `self` is
 split on its first `__`; when the prefix names a registered provider, the
 whole name is bound to what that provider reads from the request under the
 key, `None` included.
 */
module Binding {
  import opened Wrappers
  import opened Naming
  import opened Registry

  /** The two fields of `inspect.getargspec` the binder reads: the named
      parameters and the name of the `**` parameter, if any. */
  datatype ArgSpec = ArgSpec(args: seq<string>, keywords: Option<string>)

  /** The signature set as the source builds it: `set(argspec.args)` united
      with `set(argspec.keywords)`. The latter is a set of one-character
      strings, the letters of the `**` parameter's name. */
  function Signature(spec: ArgSpec): (s: set<string>)
    ensures forall a :: a in spec.args ==> a in s
    ensures forall n :: n in s && n !in spec.args ==> spec.keywords.Some? && |n| == 1 && n[0] in spec.keywords.value
    ensures spec.keywords.Some? ==> forall i :: 0 <= i < |spec.keywords.value| ==> [spec.keywords.value[i]] in s
  {
    (set a | a in spec.args)
      + (if spec.keywords.Some? then (set c | c in spec.keywords.value :: [c]) else {})
  }

  /** The first `__` of `s` starts at `i`. */
  predicate FirstSepAt(s: string, i: int) {
    SepAt(s, i) && forall j :: 0 <= j < i ==> !SepAt(s, j)
  }

  /** The parameters bound from the request, keyed by full parameter name. */
  function ExtractParams(providers: seq<Provider>, signature: set<string>, captured: set<string>, req: Request): map<string, Value>
  {
    var table := ProviderTable(providers);
    map p | p in signature - captured - {"self"}
              && SplitFirst(p).Some? && SplitFirst(p).value.0 in table
      :: table[SplitFirst(p).value.0].getValue(req, SplitFirst(p).value.1)
  }

  // ---------------------------------------------------------------------------
  // Properties
  // ---------------------------------------------------------------------------

  /** A parameter is bound exactly when it is declared, is not a URL capture,
      is not `self`, and the text before its first `__` names a provider; it
      is then bound to that provider's answer for the text after the
      separator, whatever the answer is. */
  lemma ExtractParamsSpec(providers: seq<Provider>, signature: set<string>, captured: set<string>, req: Request, p: string)
    ensures var bound := ExtractParams(providers, signature, captured, req);
      p in bound <==>
        p in signature && p !in captured && p != "self"
        && exists i :: FirstSepAt(p, i) && p[..i] in ProviderTable(providers)
    ensures var bound := ExtractParams(providers, signature, captured, req);
      forall i :: p in bound && FirstSepAt(p, i) ==>
        bound[p] == ProviderTable(providers)[p[..i]].getValue(req, p[i + 2..])
  {
    var r := SplitFirst(p);
    if r.Some? {
      var (pre, key) := r.value;
      assert p[..|pre|] == pre && p[|pre| + 2..] == key;
      assert FirstSepAt(p, |pre|);
      forall i | FirstSepAt(p, i) ensures i == |pre| {
        assert !(i < |pre|) && !(|pre| < i);
      }
    }
  }

  /** Bound keys are declared parameters, never URL captures and never `self`. */
  lemma ExtractParamsKeys(providers: seq<Provider>, signature: set<string>, captured: set<string>, req: Request)
    ensures ExtractParams(providers, signature, captured, req).Keys <= signature - captured - {"self"}
  {
  }

  /** A name without `__` is never bound, whatever the providers are. */
  lemma NoSeparatorNeverBound(providers: seq<Provider>, signature: set<string>, captured: set<string>, req: Request, p: string)
    requires forall i :: 0 <= i < |p| ==> !SepAt(p, i)
    ensures p !in ExtractParams(providers, signature, captured, req)
  {
  }

  /** Taking the letters of the `**` parameter's name into the signature has
      no effect on the binding: a one-letter name never holds `__`. */
  lemma KeywordLettersNeverBound(providers: seq<Provider>, args: seq<string>, kw: string, captured: set<string>, req: Request)
    ensures ExtractParams(providers, Signature(ArgSpec(args, Some(kw))), captured, req)
         == ExtractParams(providers, Signature(ArgSpec(args, None)), captured, req)
  {
    var withKw := Signature(ArgSpec(args, Some(kw)));
    var without := Signature(ArgSpec(args, None));
    var a := ExtractParams(providers, withKw, captured, req);
    assert without <= withKw;
    forall p | p in withKw && p !in without
      ensures p !in a
    {
      assert |p| == 1;
      NoSeparatorNeverBound(providers, withKw, captured, req, p);
    }
    ExtraNamesUnbound(providers, without, withKw, captured, req);
  }

  /** Adding names to the signature that are never bound leaves the binding
      as it was. */
  lemma ExtraNamesUnbound(providers: seq<Provider>, small: set<string>, big: set<string>, captured: set<string>, req: Request)
    requires small <= big
    requires forall p :: p in big && p !in small ==> p !in ExtractParams(providers, big, captured, req)
    ensures ExtractParams(providers, big, captured, req) == ExtractParams(providers, small, captured, req)
  {
    var a := ExtractParams(providers, big, captured, req);
    var b := ExtractParams(providers, small, captured, req);
    assert a.Keys == b.Keys;
    assert forall p :: p in a ==> a[p] == b[p];
  }

  /** A signature of one bindable parameter binds it to its provider's answer
      and binds nothing else. */
  lemma ExtractSingle(providers: seq<Provider>, p: string, captured: set<string>, req: Request, prefix: string, key: string)
    requires p !in captured && p != "self"
    requires SplitFirst(p) == Some((prefix, key)) && prefix in ProviderTable(providers)
    ensures ExtractParams(providers, {p}, captured, req) == map[p := ProviderTable(providers)[prefix].getValue(req, key)]
  {
  }

  /** A signature none of whose parameters is bindable binds nothing. */
  lemma ExtractNothing(providers: seq<Provider>, signature: set<string>, captured: set<string>, req: Request)
    requires forall p :: p in signature && p !in captured && p != "self" ==>
      SplitFirst(p).None? || SplitFirst(p).value.0 !in ProviderTable(providers)
    ensures ExtractParams(providers, signature, captured, req) == map[]
  {
  }
}

=== FILE: dispatch.dfy ===
/**
 `AppContainer.wsgi_app`: one request through the routers, the binder, the
 handler and the consumers.

 The handler itself is out of reach: `argspec` stands for what
 `inspect.getargspec` reports of it and `invoke` for calling it with keyword
 arguments, which either returns a dict or returns `None`.
 */
module AppContainer {
  import opened Wrappers
  import opened Template
  import opened Routing
  import opened Registry
  import opened Binding
  import opened Mutation

  /** The providers and consumers an `AppContainer` was built with. */
  datatype App = App(providers: seq<Provider>, consumers: seq<Consumer>)

  /** `AppContainer(router)` with no explicit providers or consumers. */
  function DefaultApp(): App {
    App([PostProvider(), GetProvider(), CookieHandlerProvider(DEFAULT_COOKIE_NAME)],
        [CookieHandlerConsumer(DEFAULT_COOKIE_NAME)])
  }

  const JSON_MIMETYPE: string := "application/json"

  /** The response `wsgi_app` builds: its cookies and the dict serialised as
      its JSON body. */
  datatype Response = Response(mimetype: string, cookies: Cookies, body: Dict)

  /** How a request ends: a response, werkzeug's `NotFound` (HTTP 404), or an
      exception out of `Route.handle`. */
  datatype Outcome = Responded(response: Response) | NotFound | Raised(error: RouteError)

  /** The keyword arguments the handler receives: the URL captures bound by
      `functools.partial` merged with the extracted parameters (the call's
      own keywords win over the partial's on a clash). */
  function Kwargs(captures: Captures, extra: map<string, Value>): (k: map<string, Value>)
    ensures k.Keys == captures.Keys + extra.Keys
    ensures forall n :: n in extra ==> k[n] == extra[n]
    ensures forall n :: n in captures && n !in extra ==> k[n] == Some(captures[n])
  {
    (map n | n in captures :: Some(captures[n])) + extra
  }

  /** Calling the bound handler: URL captures plus the parameters extracted
      from the request. */
  function Invocation<H>(app: App, b: Bound<H>, req: Request,
                         argspec: H -> ArgSpec, invoke: (H, map<string, Value>) -> Option<Dict>): Option<Dict>
  {
    invoke(b.handler, Kwargs(b.captures, ExtractParams(app.providers, Signature(argspec(b.handler)), b.captures.Keys, req)))
  }

  /** The response built from a handler's dict, or `None` when the handler
      returned `None`: the JSON mimetype, the consumers' cookies, and the
      entries no registered consumer took as the body. */
  function Respond<H>(app: App, b: Bound<H>, req: Request,
                      argspec: H -> ArgSpec, invoke: (H, map<string, Value>) -> Option<Dict>): (r: Option<Response>)
    ensures r.Some? <==> Invocation(app, b, req, argspec, invoke).Some?
    ensures r.Some? ==> r.value.mimetype == JSON_MIMETYPE
    ensures r.Some? ==> forall e :: e in r.value.body <==>
      e in Invocation(app, b, req, argspec, invoke).value && !Consumed(ConsumerTable(app.consumers), e.0)
    ensures r.Some? ==>
      r.value.cookies == Mutate(ConsumerTable(app.consumers), Invocation(app, b, req, argspec, invoke).value, map[]).1
  {
    match Invocation(app, b, req, argspec, invoke)
    case None => None
    case Some(d) =>
      var (body, cookies) := ApplyConsumerMutations(app.consumers, d);
      Some(Response(JSON_MIMETYPE, cookies, body))
  }

  /** What one router does with the request: `None` when it passes the request
      on (no route handles it, or the handler returned `None`). */
  function Attempt<H>(app: App, router: Router<H>, req: Request,
                      argspec: H -> ArgSpec, invoke: (H, map<string, Value>) -> Option<Dict>): (r: Option<Outcome>)
    ensures r.Some? ==> !r.value.NotFound?
  {
    match RouterMatch(router, req.path, req.verb)
    case None => None
    case Some(Err(e)) => Some(Raised(e))
    case Some(Ok(b)) =>
      match Respond(app, b, req, argspec, invoke)
      case None => None
      case Some(resp) => Some(Responded(resp))
  }

  /** The first present element, with its position: every element before it
      is absent. */
  function FirstSome<T>(xs: seq<Option<T>>): (r: Option<T>)
    ensures r.None? <==> forall k :: 0 <= k < |xs| ==> xs[k].None?
    ensures r.Some? ==> exists k :: 0 <= k < |xs| && xs[k] == r && forall j :: 0 <= j < k ==> xs[j].None?
  {
    if xs == [] then None
    else if xs[0].Some? then xs[0]
    else
      var r := FirstSome(xs[1..]);
      assert forall k :: 1 <= k < |xs| ==> xs[1..][k - 1] == xs[k];
      r
  }

  /** What each router, in order, does with the request. */
  function Attempts<H>(app: App, routers: seq<Router<H>>, req: Request,
                       argspec: H -> ArgSpec, invoke: (H, map<string, Value>) -> Option<Dict>): seq<Option<Outcome>>
  {
    seq(|routers|, k requires 0 <= k < |routers| => Attempt(app, routers[k], req, argspec, invoke))
  }

  lemma AttemptsAt<H>(app: App, routers: seq<Router<H>>, req: Request,
                      argspec: H -> ArgSpec, invoke: (H, map<string, Value>) -> Option<Dict>)
    ensures |Attempts(app, routers, req, argspec, invoke)| == |routers|
    ensures forall k :: 0 <= k < |routers| ==>
      Attempts(app, routers, req, argspec, invoke)[k] == Attempt(app, routers[k], req, argspec, invoke)
  {
  }

  /** `wsgi_app`: the outcome of the first router that does not pass the
      request on; `NotFound` when every router does. */
  function Dispatch<H>(app: App, routers: seq<Router<H>>, req: Request,
                       argspec: H -> ArgSpec, invoke: (H, map<string, Value>) -> Option<Dict>): (r: Outcome)
    ensures r.NotFound? <==> forall k :: 0 <= k < |routers| ==> Attempt(app, routers[k], req, argspec, invoke).None?
    ensures !r.NotFound? ==>
      exists k :: 0 <= k < |routers|
        && Attempt(app, routers[k], req, argspec, invoke) == Some(r)
        && forall j :: 0 <= j < k ==> Attempt(app, routers[j], req, argspec, invoke).None?
  {
    AttemptsAt(app, routers, req, argspec, invoke);
    match FirstSome(Attempts(app, routers, req, argspec, invoke))
    case None => NotFound
    case Some(o) => o
  }

  // ---------------------------------------------------------------------------
  // Properties
  // ---------------------------------------------------------------------------

  /** The handler sees every URL capture under its own name, unchanged: the
      extracted parameters never reuse a capture's name. */
  lemma CapturesReachHandler<H>(app: App, spec: ArgSpec, b: Bound<H>, req: Request)
    ensures var k := Kwargs(b.captures, ExtractParams(app.providers, Signature(spec), b.captures.Keys, req));
      forall n :: n in b.captures ==> n in k && k[n] == Some(b.captures[n])
  {
    ExtractParamsKeys(app.providers, Signature(spec), b.captures.Keys, req);
  }

  /** Every response `wsgi_app` produces is the response built from the dict
      returned by the handler of a route that some router matched. */
  lemma RespondedBody<H>(app: App, routers: seq<Router<H>>, req: Request,
                         argspec: H -> ArgSpec, invoke: (H, map<string, Value>) -> Option<Dict>)
    requires Dispatch(app, routers, req, argspec, invoke).Responded?
    ensures exists k, b: Bound<H> ::
      0 <= k < |routers|
      && RouterMatch(routers[k], req.path, req.verb) == Some(Ok(b))
      && Respond(app, b, req, argspec, invoke) == Some(Dispatch(app, routers, req, argspec, invoke).response)
  {
    var r := Dispatch(app, routers, req, argspec, invoke);
    var k :| 0 <= k < |routers| && Attempt(app, routers[k], req, argspec, invoke) == Some(r);
    AttemptResponds(app, routers[k], req, argspec, invoke, r.response);
  }

  /** The cookies a `CookieHandler` named `cookieName` leaves on a fresh
      response after the dict `d`: a cookie is there exactly when a
      `cookie__{c}` entry with value `None` deletes it, or it is the
      handler's own cookie and some `cookie__` entry has a value; each one is
      deleted by such an entry or set to the value of such an entry. */
  ghost predicate CookiesAskedFor(cookieName: string, d: seq<Entry>, cookies: Cookies) {
    (forall c :: c in cookies <==> Deletes(d, c) || (c == cookieName && SetsAny(d)))
    && forall c :: c in cookies ==>
         (cookies[c] == Deleted && Deletes(d, c))
         || (c == cookieName && cookies[c].SetTo? && SetsTo(d, cookies[c].value))
  }

  /** A response from a default `AppContainer` carries exactly the cookies
      the handler's dict asks for. */
  lemma DefaultResponseCookies<H>(b: Bound<H>, req: Request,
                                  argspec: H -> ArgSpec, invoke: (H, map<string, Value>) -> Option<Dict>)
    requires Respond(DefaultApp(), b, req, argspec, invoke).Some?
    ensures CookiesAskedFor(DEFAULT_COOKIE_NAME, Invocation(DefaultApp(), b, req, argspec, invoke).value,
                            Respond(DefaultApp(), b, req, argspec, invoke).value.cookies)
  {
    var d := Invocation(DefaultApp(), b, req, argspec, invoke).value;
    CookieHandlerNames(DEFAULT_COOKIE_NAME, d, map[]);
    CookieHandlerValues(DEFAULT_COOKIE_NAME, d, map[]);
  }

  /** Every response a default `AppContainer` sends carries exactly the
      cookies asked for by the dict of the handler some router matched. */
  lemma DispatchedCookies<H>(routers: seq<Router<H>>, req: Request,
                             argspec: H -> ArgSpec, invoke: (H, map<string, Value>) -> Option<Dict>)
    requires Dispatch(DefaultApp(), routers, req, argspec, invoke).Responded?
    ensures exists k, b: Bound<H> ::
      0 <= k < |routers|
      && RouterMatch(routers[k], req.path, req.verb) == Some(Ok(b))
      && Invocation(DefaultApp(), b, req, argspec, invoke).Some?
      && CookiesAskedFor(DEFAULT_COOKIE_NAME, Invocation(DefaultApp(), b, req, argspec, invoke).value,
                         Dispatch(DefaultApp(), routers, req, argspec, invoke).response.cookies)
  {
    var app := DefaultApp();
    RespondedBody(app, routers, req, argspec, invoke);
    var k, b: Bound<H> :| 0 <= k < |routers|
      && RouterMatch(routers[k], req.path, req.verb) == Some(Ok(b))
      && Respond(app, b, req, argspec, invoke) == Some(Dispatch(app, routers, req, argspec, invoke).response);
    DefaultResponseCookies(b, req, argspec, invoke);
  }

  lemma AttemptResponds<H>(app: App, router: Router<H>, req: Request,
                           argspec: H -> ArgSpec, invoke: (H, map<string, Value>) -> Option<Dict>, resp: Response)
    requires Attempt(app, router, req, argspec, invoke) == Some(Responded(resp))
    ensures exists b :: RouterMatch(router, req.path, req.verb) == Some(Ok(b)) && Respond(app, b, req, argspec, invoke) == Some(resp)
  {
    var m := RouterMatch(router, req.path, req.verb);
    match m
    case Some(Ok(b)) =>
      assert Respond(app, b, req, argspec, invoke) == Some(resp);
  }

  /** A request whose method no route of any router accepts ends in `NotFound`. */
  lemma UnknownMethodNotFound<H>(app: App, routers: seq<Router<H>>, req: Request,
                                 argspec: H -> ArgSpec, invoke: (H, map<string, Value>) -> Option<Dict>)
    requires forall k, i :: 0 <= k < |routers| && 0 <= i < |routers[k].endpoints| ==> req.verb !in routers[k].endpoints[i].methods
    ensures Dispatch(app, routers, req, argspec, invoke) == NotFound
  {
    forall k | 0 <= k < |routers| ensures Attempt(app, routers[k], req, argspec, invoke).None? {
      assert RouterMatch(routers[k], req.path, req.verb).None?;
    }
  }

  /** With a single router (what `AppContainer` builds), a handler returning
      `None` ends the request in `NotFound`: later routes of the same router
      that would also handle it are never tried. */
  lemma NoneResultIsNotFound<H>(app: App, router: Router<H>, req: Request, b: Bound<H>,
                                argspec: H -> ArgSpec, invoke: (H, map<string, Value>) -> Option<Dict>)
    requires RouterMatch(router, req.path, req.verb) == Some(Ok(b))
    requires Invocation(app, b, req, argspec, invoke).None?
    ensures Dispatch(app, [router], req, argspec, invoke) == NotFound
  {
  }
}

=== FILE: mutation.dfy ===
/**
 `AppContainer.apply_consumer_mutations`: the handler's result dict is
 walked in iteration order; a key whose text before its first `__` names a
 registered consumer is handed to that consumer (with the text after the
 separator and the value) and removed, every other key stays.

 A dict is modelled as its entries in iteration order, with distinct keys.
 */
module Mutation {
  import opened Wrappers
  import opened Naming
  import opened Registry

  type Entry = (string, Value)

  predicate DistinctKeys(d: seq<Entry>) {
    forall i, j :: 0 <= i < j < |d| ==> d[i].0 != d[j].0
  }

  /** A Python dict: entries in iteration order, no key twice. */
  type Dict = d: seq<Entry> | DistinctKeys(d)

  /** `key` is a directive for one of the consumers in `table`. */
  predicate Consumed(table: map<string, Consumer>, key: string) {
    SplitFirst(key).Some? && SplitFirst(key).value.0 in table
  }

  /** The walk over the entries: returns the entries left for the body and
      the cookies after every consumed entry has been applied, in order. */
  function Mutate(table: map<string, Consumer>, d: seq<Entry>, cookies: Cookies): (r: (seq<Entry>, Cookies))
    ensures forall e :: e in r.0 <==> e in d && !Consumed(table, e.0)
    ensures DistinctKeys(d) ==> DistinctKeys(r.0)
  {
    if d == [] then ([], cookies)
    else
      var (key, value) := d[0];
      assert DistinctKeys(d) ==> DistinctKeys(d[1..]);
      match SplitFirst(key)
      case None =>
        var (rest, c) := Mutate(table, d[1..], cookies);
        assert DistinctKeys(d) ==> forall e :: e in rest ==> e.0 != key;
        ([d[0]] + rest, c)
      case Some((cmd, param)) =>
        if cmd in table then
          Mutate(table, d[1..], table[cmd].setValue(cookies, param, value))
        else
          var (rest, c) := Mutate(table, d[1..], cookies);
          assert DistinctKeys(d) ==> forall e :: e in rest ==> e.0 != key;
          ([d[0]] + rest, c)
  }

  /** `apply_consumer_mutations` on a fresh response: the remaining dict and
      the cookies the consumers set. */
  function ApplyConsumerMutations(consumers: seq<Consumer>, d: Dict): (r: (Dict, Cookies))
  {
    Mutate(ConsumerTable(consumers), d, map[])
  }

  /** An entry no consumer claims stays at the front of the body. */
  lemma MutateKeeps(table: map<string, Consumer>, e: Entry, rest: seq<Entry>, cookies: Cookies)
    requires !Consumed(table, e.0)
    ensures Mutate(table, [e] + rest, cookies) == ([e] + Mutate(table, rest, cookies).0, Mutate(table, rest, cookies).1)
  {
    assert ([e] + rest)[0] == e && ([e] + rest)[1..] == rest;
  }

  /** A claimed entry leaves the body and goes to its consumer first. */
  lemma MutateConsumes(table: map<string, Consumer>, e: Entry, rest: seq<Entry>, cookies: Cookies)
    requires Consumed(table, e.0)
    ensures var (cmd, param) := SplitFirst(e.0).value;
      Mutate(table, [e] + rest, cookies) == Mutate(table, rest, table[cmd].setValue(cookies, param, e.1))
  {
    assert ([e] + rest)[0] == e && ([e] + rest)[1..] == rest;
  }

  // ---------------------------------------------------------------------------
  // The default consumer: `CookieHandler`
  // ---------------------------------------------------------------------------

  /** The entry at `i` is a `cookie__{c}` directive with value `None`. */
  predicate DeletesAt(d: seq<Entry>, i: int, c: string) {
    0 <= i < |d| && SplitFirst(d[i].0) == Some(("cookie", c)) && d[i].1.None?
  }

  /** The entry at `i` is a `cookie__...` directive with value `Some(v)`. */
  predicate SetsAt(d: seq<Entry>, i: int, v: string) {
    0 <= i < |d| && SplitFirst(d[i].0).Some? && SplitFirst(d[i].0).value.0 == "cookie" && d[i].1 == Some(v)
  }

  /** The consumer table `AppContainer` builds from `[CookieHandler(cookieName)]`. */
  lemma CookieTable(cookieName: string)
    ensures ConsumerTable([CookieHandlerConsumer(cookieName)]).Keys == {"cookie"}
    ensures ConsumerTable([CookieHandlerConsumer(cookieName)])["cookie"] == CookieHandlerConsumer(cookieName)
  {
    assert [CookieHandlerConsumer(cookieName)][..0] == [];
  }

  ghost predicate Deletes(d: seq<Entry>, c: string) {
    exists i :: DeletesAt(d, i, c)
  }

  ghost predicate SetsTo(d: seq<Entry>, v: string) {
    exists i :: SetsAt(d, i, v)
  }

  ghost predicate SetsAny(d: seq<Entry>) {
    exists i, v :: SetsAt(d, i, v)
  }

  lemma Shift(d: seq<Entry>)
    requires d != []
    ensures forall c :: Deletes(d, c) <==> DeletesAt(d, 0, c) || Deletes(d[1..], c)
    ensures forall v :: SetsTo(d, v) <==> SetsAt(d, 0, v) || SetsTo(d[1..], v)
    ensures SetsAny(d) <==> (d[0].1.Some? && SetsAt(d, 0, d[0].1.value)) || SetsAny(d[1..])
  {
    assert forall i, c :: 0 <= i ==> (DeletesAt(d, i + 1, c) <==> DeletesAt(d[1..], i, c));
    assert forall i, v :: 0 <= i ==> (SetsAt(d, i + 1, v) <==> SetsAt(d[1..], i, v));
    forall c | Deletes(d, c) ensures DeletesAt(d, 0, c) || Deletes(d[1..], c) {
      var i :| DeletesAt(d, i, c);
      if i > 0 { assert DeletesAt(d[1..], i - 1, c); }
    }
    forall v | SetsTo(d, v) ensures SetsAt(d, 0, v) || SetsTo(d[1..], v) {
      var i :| SetsAt(d, i, v);
      if i > 0 { assert SetsAt(d[1..], i - 1, v); }
    }
    if SetsAny(d) {
      var i, v :| SetsAt(d, i, v);
      if i > 0 { assert SetsAt(d[1..], i - 1, v); }
    }
    if SetsAny(d[1..]) {
      var i, v :| SetsAt(d[1..], i, v);
      assert SetsAt(d, i + 1, v);
    }
  }

  /** The cookies after a `CookieHandler` has seen one entry. */
  function CookieStep(cookieName: string, e: Entry, cookies: Cookies): Cookies {
    match SplitFirst(e.0)
    case Some((cmd, param)) =>
      if cmd == "cookie" then CookieSetValue(cookieName, cookies, param, e.1) else cookies
    case None => cookies
  }

  lemma MutateStep(cookieName: string, d: seq<Entry>, cookies: Cookies)
    requires d != []
    ensures Mutate(ConsumerTable([CookieHandlerConsumer(cookieName)]), d, cookies).1
         == Mutate(ConsumerTable([CookieHandlerConsumer(cookieName)]), d[1..], CookieStep(cookieName, d[0], cookies)).1
  {
    var table := ConsumerTable([CookieHandlerConsumer(cookieName)]);
    assert d == [d[0]] + d[1..];
    if Consumed(table, d[0].0) {
      CookieStepConsumed(cookieName, d[0], d[1..], cookies);
    } else {
      CookieStepKept(cookieName, d[0], d[1..], cookies);
    }
  }

  lemma CookieStepConsumed(cookieName: string, e: Entry, rest: seq<Entry>, cookies: Cookies)
    requires Consumed(ConsumerTable([CookieHandlerConsumer(cookieName)]), e.0)
    ensures Mutate(ConsumerTable([CookieHandlerConsumer(cookieName)]), [e] + rest, cookies)
         == Mutate(ConsumerTable([CookieHandlerConsumer(cookieName)]), rest, CookieStep(cookieName, e, cookies))
  {
    var table := ConsumerTable([CookieHandlerConsumer(cookieName)]);
    CookieTable(cookieName);
    MutateConsumes(table, e, rest, cookies);
  }

  lemma CookieStepKept(cookieName: string, e: Entry, rest: seq<Entry>, cookies: Cookies)
    requires !Consumed(ConsumerTable([CookieHandlerConsumer(cookieName)]), e.0)
    ensures Mutate(ConsumerTable([CookieHandlerConsumer(cookieName)]), [e] + rest, cookies).1
         == Mutate(ConsumerTable([CookieHandlerConsumer(cookieName)]), rest, CookieStep(cookieName, e, cookies)).1
  {
    var table := ConsumerTable([CookieHandlerConsumer(cookieName)]);
    CookieTable(cookieName);
    MutateKeeps(table, e, rest, cookies);
  }

  /** A cookie is on the response when it was already there, when a
      `cookie__{c}` entry with value `None` deletes it, or when it is the
      handler's own cookie and some `cookie__` entry has a value. */
  lemma {:induction false} CookieHandlerNames(cookieName: string, d: seq<Entry>, cookies: Cookies)
    ensures var r := Mutate(ConsumerTable([CookieHandlerConsumer(cookieName)]), d, cookies).1;
      forall c :: c in r <==> c in cookies || Deletes(d, c) || (c == cookieName && SetsAny(d))
  {
    if d != [] {
      MutateStep(cookieName, d, cookies);
      Shift(d);
      CookieHandlerNames(cookieName, d[1..], CookieStep(cookieName, d[0], cookies));
    }
  }

  /** Every cookie on the response is either untouched, deleted by a `None`
      entry naming it, or the handler's own cookie set to the value of some
      `cookie__` entry. */
  lemma {:induction false} CookieHandlerValues(cookieName: string, d: seq<Entry>, cookies: Cookies)
    ensures var r := Mutate(ConsumerTable([CookieHandlerConsumer(cookieName)]), d, cookies).1;
      forall c :: c in r ==>
        (c in cookies && r[c] == cookies[c])
        || (r[c] == Deleted && Deletes(d, c))
        || (c == cookieName && r[c].SetTo? && SetsTo(d, r[c].value))
  {
    if d != [] {
      MutateStep(cookieName, d, cookies);
      Shift(d);
      var next := CookieStep(cookieName, d[0], cookies);
      CookieHandlerValues(cookieName, d[1..], next);
      match SplitFirst(d[0].0)
      case Some((cmd, param)) =>
        if cmd == "cookie" {
          if d[0].1.None? { assert DeletesAt(d, 0, param); } else { assert SetsAt(d, 0, d[0].1.value); }
        }
      case None =>
    }
  }

  /** A `cookie__{c}` entry with value `None` leaves cookie `c` deleted, unless
      `c` is the handler's own cookie, which a later entry may set again. */
  lemma {:induction false} CookieHandlerDeletes(cookieName: string, d: seq<Entry>, cookies: Cookies, c: string)
    requires c != cookieName && Deletes(d, c)
    ensures var r := Mutate(ConsumerTable([CookieHandlerConsumer(cookieName)]), d, cookies).1;
      c in r && r[c] == Deleted
  {
    MutateStep(cookieName, d, cookies);
    Shift(d);
    var next := CookieStep(cookieName, d[0], cookies);
    if Deletes(d[1..], c) {
      CookieHandlerDeletes(cookieName, d[1..], next, c);
    } else {
      assert DeletesAt(d, 0, c);
      CookieStepDeletes(cookieName, d[0], cookies, c);
      CookieUntouched(cookieName, d[1..], next, c);
    }
  }

  /** A `cookie__{c}` entry with value `None` marks cookie `c` deleted. */
  lemma CookieStepDeletes(cookieName: string, e: Entry, cookies: Cookies, c: string)
    requires SplitFirst(e.0) == Some(("cookie", c)) && e.1.None?
    ensures c in CookieStep(cookieName, e, cookies) && CookieStep(cookieName, e, cookies)[c] == Deleted
  {
  }

  /** A cookie that no later entry targets keeps its state. */
  lemma {:induction false} CookieUntouched(cookieName: string, d: seq<Entry>, cookies: Cookies, c: string)
    requires c != cookieName && !Deletes(d, c) && c in cookies
    ensures var r := Mutate(ConsumerTable([CookieHandlerConsumer(cookieName)]), d, cookies).1;
      c in r && r[c] == cookies[c]
  {
    if d != [] {
      MutateStep(cookieName, d, cookies);
      Shift(d);
      CookieUntouched(cookieName, d[1..], CookieStep(cookieName, d[0], cookies), c);
    }
  }
}

=== FILE: naming.dfy ===
/**
 The `{prefix}__{key}` naming convention: a handler parameter or a result key
 is split on its FIRST `__` (`str.split("__", 1)` followed by a two-way
 unpacking, which raises `ValueError` when there is no separator).
 */
module Naming {
  import opened Wrappers

  /** The separator `__` starts at index `i` of `s`. */
  predicate SepAt(s: string, i: int) {
    0 <= i && i + 1 < |s| && s[i] == '_' && s[i + 1] == '_'
  }

  /** Splits `name` into the text before its first `__` and the text after it;
      `None` when `name` holds no `__`. */
  function SplitFirst(name: string): (r: Option<(string, string)>)
    ensures r.None? <==> forall i :: 0 <= i < |name| ==> !SepAt(name, i)
    ensures r.Some? ==> r.value.0 + "__" + r.value.1 == name
    ensures r.Some? ==> SepAt(name, |r.value.0|) && forall i :: 0 <= i < |r.value.0| ==> !SepAt(name, i)
  {
    if |name| < 2 then None
    else if name[0] == '_' && name[1] == '_' then
      assert SepAt(name, 0);
      Some(([], name[2..]))
    else
      assert forall i :: 1 <= i < |name| ==> (SepAt(name, i) <==> SepAt(name[1..], i - 1));
      match SplitFirst(name[1..])
      case None => None
      case Some((p, k)) =>
        assert SepAt(name, |p| + 1);
        Some(([name[0]] + p, k))
  }

  /** The prefix of a split never holds the separator itself. */
  lemma PrefixHasNoSeparator(name: string)
    requires SplitFirst(name).Some?
    ensures forall i :: 0 <= i < |SplitFirst(name).value.0| ==> !SepAt(SplitFirst(name).value.0, i)
  {
    var p := SplitFirst(name).value.0;
    assert forall j :: 0 <= j < |p| ==> name[j] == p[j];
    forall i | 0 <= i < |p| ensures !SepAt(p, i) {
      assert !SepAt(name, i);
    }
  }

  /** Joining a prefix and a key with `__` and splitting again gives them back,
      provided the first `__` of the joined name is the one inserted: the
      prefix holds no `__` and does not end in `_`. */
  lemma SplitJoin(p: string, k: string)
    requires forall i :: 0 <= i < |p| ==> !SepAt(p + "_", i)
    ensures SplitFirst(p + "__" + k) == Some((p, k))
  {
    var name := p + "__" + k;
    assert SepAt(name, |p|);
    forall i | 0 <= i < |p| ensures !SepAt(name, i) {
      assert !SepAt(p + "_", i);
      assert name[i] == (p + "_")[i] && name[i + 1] == (p + "_")[i + 1];
    }
    var r := SplitFirst(name);
    assert r.Some?;
    var (p', k') := r.value;
    assert SepAt(name, |p'|) && forall i :: 0 <= i < |p'| ==> !SepAt(name, i);
    assert |p'| == |p|;
    assert p' == name[..|p|] == p;
    assert k' == name[|p| + 2..] == k;
  }
}

=== FILE: registry.dfy ===
/**
 Requests, responses, and the pluggable providers and consumers.

 A provider answers, for a request and a key, the value the request holds
 under that key (or `None`); a consumer writes a value into the response.
 Both are registered by prefix: `AppContainer` builds a dict from prefix to
 provider (and to consumer), so when two share a prefix the later one wins.
 */
module Registry {
  import opened Wrappers

  /** A value a handler receives or returns: `None` is Python's `None`, any
      other value is kept as its text. */
  type Value = Option<string>

  /** The parts of a werkzeug `Request` the core reads. */
  datatype Request = Request(
    path: string,
    verb: string,
    args: map<string, string>,    // query parameters
    form: map<string, string>,    // form-body parameters
    cookies: map<string, string>)

  /** `dict.get`: the value under `k`, `None` when absent, never an error. */
  function Lookup(m: map<string, string>, k: string): (r: Value)
    ensures r.Some? <==> k in m
    ensures r.Some? ==> r.value == m[k]
  {
    if k in m then Some(m[k]) else None
  }

  /** `ArgProvider`: a prefix and `get_value(request, param)`. */
  datatype Provider = Provider(prefix: string, getValue: (Request, string) -> Value)

  /** `GetProvider`: `get__key` reads the query string. */
  function GetProvider(): Provider {
    Provider("get", (req: Request, key: string) => Lookup(req.args, key))
  }

  /** `PostProvider`: `post__key` reads the form body. */
  function PostProvider(): Provider {
    Provider("post", (req: Request, key: string) => Lookup(req.form, key))
  }

  /** `CookieHandler` in its provider role; reading ignores the cookie name
      the handler was built with. The default app registers this rather than
      `CookieProvider`, which reads request cookies the same way. */
  function CookieHandlerProvider(cookieName: string): Provider {
    Provider("cookie", (req: Request, key: string) => Lookup(req.cookies, key))
  }

  /** One `Set-Cookie` directive on the response. */
  datatype CookieAction = SetTo(value: string) | Deleted

  /** The cookies a response sets or deletes, by cookie name. */
  type Cookies = map<string, CookieAction>

  /** `ResponseConsumer`: a prefix and `set_value(response, key, value)`. */
  datatype Consumer = Consumer(prefix: string, setValue: (Cookies, string, Value) -> Cookies)

  /** The default `_cookie_name` of a `CookieHandler`. */
  const DEFAULT_COOKIE_NAME: string := "pisces_cookie"

  /** `CookieHandler.set_value`: `None` deletes the cookie named by the key;
      any other value sets the handler's OWN cookie name, not the key. */
  function CookieSetValue(cookieName: string, cookies: Cookies, key: string, value: Value): (r: Cookies)
    ensures value.None? ==> key in r && r[key] == Deleted
    ensures value.Some? ==> cookieName in r && r[cookieName] == SetTo(value.value)
    ensures r.Keys == cookies.Keys + {if value.None? then key else cookieName}
    ensures forall c :: c in cookies && c != (if value.None? then key else cookieName) ==> r[c] == cookies[c]
  {
    if value.None? then cookies[key := Deleted] else cookies[cookieName := SetTo(value.value)]
  }

  /** `CookieHandler` in its consumer role. */
  function CookieHandlerConsumer(cookieName: string): Consumer {
    Consumer("cookie", (cookies: Cookies, key: string, value: Value) => CookieSetValue(cookieName, cookies, key, value))
  }

  /** The dict `{item.get_prefix(): item for item in items}` built by the
      loops of `AppContainer`: every prefix present, each mapped to the LAST
      item that carries it. */
  function Table<T>(items: seq<T>, prefix: T -> string): (r: map<string, T>)
    ensures forall p :: p in r <==> exists i :: 0 <= i < |items| && prefix(items[i]) == p
    ensures forall p :: p in r ==>
      exists i :: 0 <= i < |items| && prefix(items[i]) == p && r[p] == items[i]
        && forall j :: i < j < |items| ==> prefix(items[j]) != p
  {
    if items == [] then map[]
    else
      var init := items[..|items| - 1];
      var last := items[|items| - 1];
      var t := Table(init, prefix);
      var r := t[prefix(last) := last];
      TableStep(items, prefix, t, r);
      r
  }

  function ProviderTable(providers: seq<Provider>): map<string, Provider> {
    Table(providers, (p: Provider) => p.prefix)
  }

  function ConsumerTable(consumers: seq<Consumer>): map<string, Consumer> {
    Table(consumers, (c: Consumer) => c.prefix)
  }

  /** An item whose prefix no other item shares is what the table holds
      under that prefix. */
  lemma TableAt<T>(items: seq<T>, prefix: T -> string, k: int)
    requires 0 <= k < |items|
    requires forall j :: 0 <= j < |items| && j != k ==> prefix(items[j]) != prefix(items[k])
    ensures prefix(items[k]) in Table(items, prefix)
    ensures Table(items, prefix)[prefix(items[k])] == items[k]
  {
    var t := Table(items, prefix);
    var p := prefix(items[k]);
    var i :| 0 <= i < |items| && prefix(items[i]) == p && t[p] == items[i]
      && forall j :: i < j < |items| ==> prefix(items[j]) != p;
    assert i == k;
  }

  /** The provider whose prefix no other provider shares. */
  lemma ProviderTableAt(providers: seq<Provider>, k: int)
    requires 0 <= k < |providers|
    requires forall j :: 0 <= j < |providers| && j != k ==> providers[j].prefix != providers[k].prefix
    ensures providers[k].prefix in ProviderTable(providers)
    ensures ProviderTable(providers)[providers[k].prefix] == providers[k]
  {
    TableAt(providers, (p: Provider) => p.prefix, k);
  }

  /** A prefix no provider declares is not in the table. */
  lemma ProviderTableMissing(providers: seq<Provider>, name: string)
    requires forall j :: 0 <= j < |providers| ==> providers[j].prefix != name
    ensures name !in ProviderTable(providers)
  {
  }

  lemma TableStep<T>(items: seq<T>, prefix: T -> string, t: map<string, T>, r: map<string, T>)
    requires items != []
    requires var init := items[..|items| - 1];
      forall p :: p in t <==> exists i :: 0 <= i < |init| && prefix(init[i]) == p
    requires var init := items[..|items| - 1];
      forall p :: p in t ==>
        exists i :: 0 <= i < |init| && prefix(init[i]) == p && t[p] == init[i]
          && forall j :: i < j < |init| ==> prefix(init[j]) != p
    requires r == t[prefix(items[|items| - 1]) := items[|items| - 1]]
    ensures forall p :: p in r <==> exists i :: 0 <= i < |items| && prefix(items[i]) == p
    ensures forall p :: p in r ==>
      exists i :: 0 <= i < |items| && prefix(items[i]) == p && r[p] == items[i]
        && forall j :: i < j < |items| ==> prefix(items[j]) != p
  {
    var n := |items| - 1;
    var init := items[..n];
    assert forall i :: 0 <= i < n ==> init[i] == items[i];
    forall p | p in r
      ensures exists i :: (0 <= i < |items| && prefix(items[i]) == p && r[p] == items[i]
        && forall j :: i < j < |items| ==> prefix(items[j]) != p)
    {
      if p == prefix(items[n]) {
        assert prefix(items[n]) == p && r[p] == items[n];
      } else {
        var i :| 0 <= i < n && prefix(init[i]) == p && t[p] == init[i]
          && forall j :: i < j < n ==> prefix(init[j]) != p;
        assert r[p] == items[i];
      }
    }
  }
}

=== FILE: routing.dfy ===
/**
 `Route` and `Router`: a route binds a compiled template, a handler on some
 instance and the set of HTTP methods it accepts; a router scans its routes in
 declaration order and hands the request to the first that accepts it.

 The handler is left abstract (`H`). Looking it up with `getattr` is modelled
 by the route carrying `Option<H>`: `None` is a callback name that does not
 resolve on the instance.
 */
module Routing {
  import opened Wrappers
  import opened Template

  /** `ALL_METHODS`, used when a route is declared without a method list. */
  const ALL_METHODS: seq<string> := ["GET", "POST"]

  datatype Route<H> = Route(url: string, template: Template, handler: Option<H>, methods: seq<string>)

  /** The exceptions `Route.handle` raises. */
  datatype RouteError =
    | AttributeError  // the callback cannot be found on the instance
    | TypeError       // `**None`: `handle` was given a path the route does not match

  /** `functools.partial(method, **params)`: the handler with its URL captures bound. */
  datatype Bound<H> = Bound(handler: H, captures: Captures)

  /** A route as `Route.__init__` builds it: compiling the template raises on
      a bad group name, and a missing method list means `ALL_METHODS`. */
  function NewRoute<H>(url: string, handler: Option<H>, methods: Option<seq<string>>): (r: Option<Route<H>>)
    ensures r.Some? <==> WellFormed(Parse(url))
    ensures r.Some? ==> ValidRoute(r.value) && Unparse(r.value.template) == url
    ensures r.Some? ==> r.value.methods == (if methods.Some? then methods.value else ALL_METHODS)
    ensures r.Some? ==> r.value.url == url && r.value.handler == handler
  {
    UnparseParse(url);
    match Compile(url)
    case None => None
    case Some(t) => Some(Route(url, t, handler, if methods.None? then ALL_METHODS else methods.value))
  }

  /** What every constructed route satisfies: its template compiled. */
  predicate ValidRoute<H>(r: Route<H>) {
    WellFormed(r.template)
  }

  /** `Route.handles_route`. */
  predicate HandlesRoute<H>(r: Route<H>, path: string, verb: string) {
    Match(r.template, path).Some? && verb in r.methods
  }

  /** `Route.handle`: resolves the callback, then binds the captures; the
      callback lookup comes first, so a missing callback wins over a path
      that does not match. */
  function Handle<H>(r: Route<H>, path: string): (res: Result<Bound<H>, RouteError>)
    ensures res == Err(AttributeError) <==> r.handler.None?
    ensures res == Err(TypeError) <==> r.handler.Some? && Match(r.template, path).None?
    ensures res.Ok? ==> r.handler == Some(res.value.handler) && Match(r.template, path) == Some(res.value.captures)
  {
    match r.handler
    case None => Err(AttributeError)
    case Some(h) =>
      match Match(r.template, path)
      case None => Err(TypeError)
      case Some(caps) => Ok(Bound(h, caps))
  }

  datatype Router<H> = Router(endpoints: seq<Route<H>>)

  /** `Router.match`: `None` when no route handles the request, otherwise what
      `handle` does for the first route, in declaration order, that does. */
  function RouterMatch<H>(router: Router<H>, path: string, verb: string): (res: Option<Result<Bound<H>, RouteError>>)
    ensures res.None? <==> forall i :: 0 <= i < |router.endpoints| ==> !HandlesRoute(router.endpoints[i], path, verb)
    ensures res.Some? ==>
      exists i :: 0 <= i < |router.endpoints|
        && HandlesRoute(router.endpoints[i], path, verb)
        && (forall j :: 0 <= j < i ==> !HandlesRoute(router.endpoints[j], path, verb))
        && res.value == Handle(router.endpoints[i], path)
  {
    FirstHandling(router.endpoints, path, verb)
  }

  function FirstHandling<H>(routes: seq<Route<H>>, path: string, verb: string): (res: Option<Result<Bound<H>, RouteError>>)
    ensures res.None? <==> forall i :: 0 <= i < |routes| ==> !HandlesRoute(routes[i], path, verb)
    ensures res.Some? ==>
      exists i :: 0 <= i < |routes|
        && HandlesRoute(routes[i], path, verb)
        && (forall j :: 0 <= j < i ==> !HandlesRoute(routes[j], path, verb))
        && res.value == Handle(routes[i], path)
  {
    if routes == [] then None
    else if HandlesRoute(routes[0], path, verb) then Some(Handle(routes[0], path))
    else
      var res := FirstHandling(routes[1..], path, verb);
      FirstHandlingShift(routes, path, verb, res);
      res
  }

  /** Skipping a first route that does not handle the request keeps the
      first-handling characterisation, with every position shifted by one. */
  lemma FirstHandlingShift<H>(routes: seq<Route<H>>, path: string, verb: string, res: Option<Result<Bound<H>, RouteError>>)
    requires routes != [] && !HandlesRoute(routes[0], path, verb)
    requires res.None? <==> forall i :: 0 <= i < |routes[1..]| ==> !HandlesRoute(routes[1..][i], path, verb)
    requires res.Some? ==>
      exists i :: 0 <= i < |routes[1..]|
        && HandlesRoute(routes[1..][i], path, verb)
        && (forall j :: 0 <= j < i ==> !HandlesRoute(routes[1..][j], path, verb))
        && res.value == Handle(routes[1..][i], path)
    ensures res.None? <==> forall i :: 0 <= i < |routes| ==> !HandlesRoute(routes[i], path, verb)
    ensures res.Some? ==>
      exists i :: 0 <= i < |routes|
        && HandlesRoute(routes[i], path, verb)
        && (forall j :: 0 <= j < i ==> !HandlesRoute(routes[j], path, verb))
        && res.value == Handle(routes[i], path)
  {
    var tail := routes[1..];
    if res.Some? {
      var i :| 0 <= i < |tail| && HandlesRoute(tail[i], path, verb)
        && (forall j :: 0 <= j < i ==> !HandlesRoute(tail[j], path, verb))
        && res.value == Handle(tail[i], path);
      ShiftFound(routes, path, verb, i);
    } else {
      forall i | 0 <= i < |routes| ensures !HandlesRoute(routes[i], path, verb) {
        if i > 0 { assert routes[i] == tail[i - 1]; }
      }
    }
  }

  lemma ShiftFound<H>(routes: seq<Route<H>>, path: string, verb: string, i: int)
    requires routes != [] && !HandlesRoute(routes[0], path, verb)
    requires 0 <= i < |routes[1..]|
    requires forall j :: 0 <= j < i ==> !HandlesRoute(routes[1..][j], path, verb)
    ensures routes[i + 1] == routes[1..][i]
    ensures forall j :: 0 <= j < i + 1 ==> !HandlesRoute(routes[j], path, verb)
  {
    var tail := routes[1..];
    forall j | 0 <= j < i + 1 ensures !HandlesRoute(routes[j], path, verb) {
      if j > 0 { assert routes[j] == tail[j - 1]; }
    }
  }

  // ---------------------------------------------------------------------------
  // Properties
  // ---------------------------------------------------------------------------

  /** A route handles a request exactly when the path is a filling of its
      template and the method is one it accepts. */
  lemma HandlesRouteIff<H>(r: Route<H>, path: string, verb: string)
    requires ValidRoute(r)
    ensures HandlesRoute(r, path, verb) <==>
      (exists caps: Captures :: (forall n :: n in Names(r.template) ==> n in caps) && Fill(r.template, caps) == path)
      && verb in r.methods
  {
    MatchIff(r.template, path);
  }

  /** A route declared without a method list accepts GET and POST and nothing
      else; a route declared for POST only turns GET away. */
  lemma DefaultMethods<H>(url: string, handler: Option<H>, path: string, verb: string)
    requires NewRoute(url, handler, None).Some?
    ensures var r := NewRoute(url, handler, None).value;
      HandlesRoute(r, path, verb) <==> Match(r.template, path).Some? && (verb == "GET" || verb == "POST")
    ensures NewRoute(url, handler, Some(["POST"])).Some?
    ensures !HandlesRoute(NewRoute(url, handler, Some(["POST"])).value, path, "GET")
  {
  }

  /** What `handle` binds on any constructed route: the route's own callback,
      with one capture per placeholder, and the captures put back into the
      template rebuild the path. */
  lemma HandleBinds<H>(r: Route<H>, path: string)
    requires ValidRoute(r)
    requires Handle(r, path).Ok?
    ensures r.handler == Some(Handle(r, path).value.handler)
    ensures forall n :: n in Handle(r, path).value.captures <==> n in Names(r.template)
    ensures Fill(r.template, Handle(r, path).value.captures) == path
  {
    MatchSound(r.template, path);
  }

  /** When the router picked a route, binding its captures cannot fail on the
      path, and the bound captures are exactly the chosen route's placeholder
      names and rebuild the path. */
  lemma RouterMatchBinds<H>(router: Router<H>, path: string, verb: string)
    requires forall i :: 0 <= i < |router.endpoints| ==> ValidRoute(router.endpoints[i])
    requires RouterMatch(router, path, verb).Some?
    ensures RouterMatch(router, path, verb).value != Err(TypeError)
    ensures RouterMatch(router, path, verb).value.Ok? ==>
      var b := RouterMatch(router, path, verb).value.value;
      exists i :: 0 <= i < |router.endpoints| && HandlesRoute(router.endpoints[i], path, verb)
        && (forall n :: n in b.captures <==> n in Names(router.endpoints[i].template))
        && Fill(router.endpoints[i].template, b.captures) == path
  {
    var i :| 0 <= i < |router.endpoints|
        && HandlesRoute(router.endpoints[i], path, verb)
        && (forall j :: 0 <= j < i ==> !HandlesRoute(router.endpoints[j], path, verb))
        && RouterMatch(router, path, verb).value == Handle(router.endpoints[i], path);
    MatchSound(router.endpoints[i].template, path);
  }

  /** A route whose template has no placeholders handles exactly its own URL,
      for the methods it accepts. */
  lemma LiteralRoute<H>(url: string, handler: Option<H>, methods: Option<seq<string>>, path: string, verb: string)
    requires '<' !in url
    ensures NewRoute(url, handler, methods).Some?
    ensures HandlesRoute(NewRoute(url, handler, methods).value, path, verb) <==>
      path == url && verb in (if methods.Some? then methods.value else ALL_METHODS)
  {
    CompileLiteral(url);
    NamesLiteral(url);
    UnparseLiteral(url);
    LiteralMatchesExactly(Literal(url), path);
  }
}

=== FILE: template.dfy ===
/**
 The path-template compiler and matcher of `Route`.

 `Route._compile_regex` rewrites every `<name>` of a URL template into the
 group `(?P<name>.*)` and anchors the result with `^...$`. Here the template is
 tokenised into literal characters and placeholders, and the regular
 expression is replaced by a recursive matcher that reproduces what Python's
 backtracking engine returns for such a pattern: a placeholder first takes
 the longest remaining text and gives characters back until the rest of the
 template matches.
 */
module Template {
  import opened Wrappers

  /** One token of a parsed template: a literal character or a named capture. */
  datatype Segment = Char(c: char) | Hole(name: string)

  type Template = seq<Segment>

  /** The named groups of a successful match, as `match.groupdict()` returns them. */
  type Captures = map<string, string>

  // ---------------------------------------------------------------------------
  // Tokenising: the `(<.*?>)` substitution
  // ---------------------------------------------------------------------------

  /** Where the placeholder that follows a `<` ends: the index of the first `>`
      in `s`, provided no newline comes before it (`.` does not match a newline). */
  function CloseIndex(s: string): (r: Option<nat>)
    ensures r.Some? ==> r.value < |s| && s[r.value] == '>'
    ensures r.Some? ==> forall i :: 0 <= i < r.value ==> s[i] != '>' && s[i] != '\n'
    ensures r.None? ==> forall i :: 0 <= i < |s| && s[i] == '>' ==> '\n' in s[..i]
  {
    if s == [] then None
    else if s[0] == '>' then Some(0)
    else if s[0] == '\n' then None
    else
      match CloseIndex(s[1..])
      case None =>
        assert forall i :: 1 <= i < |s| ==> s[1..][..i - 1] == s[1..i];
        None
      case Some(j) => Some(j + 1)
  }

  /** Tokenises a URL template: a `<` that is closed by a later `>` on the same
      line opens a placeholder running to that `>`; every other character is
      literal. */
  function Parse(url: string): Template
    decreases |url|
  {
    if url == [] then []
    else if url[0] == '<' && CloseIndex(url[1..]).Some? then
      var j := CloseIndex(url[1..]).value;
      [Hole(url[1..j + 1])] + Parse(url[j + 2..])
    else
      [Char(url[0])] + Parse(url[1..])
  }

  /** The template text a segment was written as. */
  function Show(s: Segment): string {
    match s
    case Char(c) => [c]
    case Hole(n) => "<" + n + ">"
  }

  /** Writes a template back as text. */
  function Unparse(t: Template): string {
    if t == [] then [] else Show(t[0]) + Unparse(t[1..])
  }

  // ---------------------------------------------------------------------------
  // Group names and compilation
  // ---------------------------------------------------------------------------

  predicate IsIdentStart(c: char) {
    ('a' <= c <= 'z') || ('A' <= c <= 'Z') || c == '_'
  }

  predicate IsIdentChar(c: char) {
    IsIdentStart(c) || ('0' <= c <= '9')
  }

  /** A group name the regular-expression compiler accepts: a non-empty ASCII
      identifier, which is what Python 2's `sre_parse.isname` checks. */
  predicate ValidName(n: string) {
    |n| > 0 && IsIdentStart(n[0]) && forall i :: 1 <= i < |n| ==> IsIdentChar(n[i])
  }

  /** The placeholder names of a template, in order of appearance. */
  function Names(t: Template): seq<string> {
    if t == [] then []
    else match t[0]
      case Char(_) => Names(t[1..])
      case Hole(n) => [n] + Names(t[1..])
  }

  predicate Distinct(ns: seq<string>) {
    forall i, j :: 0 <= i < j < |ns| ==> ns[i] != ns[j]
  }

  /** Python 2's `sre_compile` refuses a pattern with more than 100 groups,
      counting the implicit group 0 of the whole match. */
  const MAX_GROUPS: nat := 100

  /** A template the regular-expression compiler accepts: every group name is
      valid, no name is defined twice, and the groups plus group 0 stay
      within `MAX_GROUPS`. */
  predicate WellFormed(t: Template) {
    (forall i :: 0 <= i < |Names(t)| ==> ValidName(Names(t)[i])) && Distinct(Names(t))
      && |Names(t)| + 1 <= MAX_GROUPS
  }

  /** `Route._compile_regex`: `None` stands for the error `re.compile` raises
      on an empty, malformed or repeated group name, and for the assertion
      failure on too many groups. */
  function Compile(url: string): (r: Option<Template>)
    ensures r.Some? <==> WellFormed(Parse(url))
    ensures r.Some? ==> r.value == Parse(url) && WellFormed(r.value)
  {
    var t := Parse(url);
    if WellFormed(t) then Some(t) else None
  }

  // ---------------------------------------------------------------------------
  // Matching: the anchored pattern `^...$`
  // ---------------------------------------------------------------------------

  /** Substitutes each placeholder of `t` by its capture: the path a match with
      captures `caps` stands for. */
  function Fill(t: Template, caps: Captures): string
    requires forall n :: n in Names(t) ==> n in caps
  {
    if t == [] then []
    else match t[0]
      case Char(c) => [c] + Fill(t[1..], caps)
      case Hole(n) => caps[n] + Fill(t[1..], caps)
  }

  /** `Route._match`: the named captures of a full match of `path`, or `None`. */
  function Match(t: Template, path: string): Option<Captures>
    decreases |t|, |path| + 2
  {
    if t == [] then
      if path == [] then Some(map[]) else None
    else
      match t[0]
      case Char(c) =>
        if path != [] && path[0] == c then Match(t[1..], path[1..]) else None
      case Hole(n) => MatchHole(n, t[1..], path, |path|)
  }

  /** The placeholder `n` followed by `rest`, with the placeholder allowed at
      most `k` characters: tries `k`, `k - 1`, ..., `0` and keeps the first
      length for which the rest matches. */
  function MatchHole(n: string, rest: Template, path: string, k: nat): Option<Captures>
    requires k <= |path|
    decreases |rest| + 1, k + 1
  {
    match Match(rest, path[k..])
    case Some(caps) => Some(caps[n := path[..k]])
    case None => if k == 0 then None else MatchHole(n, rest, path, k - 1)
  }

  /** Backtracking order: the placeholder gets the longest length up to `k`
      after which the rest matches, and the match fails when no length does. */
  lemma {:induction false} MatchHoleSpec(n: string, rest: Template, path: string, k: nat)
    requires k <= |path|
    ensures MatchHole(n, rest, path, k).Some? ==>
      exists j :: 0 <= j <= k && Match(rest, path[j..]).Some?
        && MatchHole(n, rest, path, k).value == Match(rest, path[j..]).value[n := path[..j]]
        && forall i :: j < i <= k ==> Match(rest, path[i..]).None?
    ensures MatchHole(n, rest, path, k).None? ==> forall j :: 0 <= j <= k ==> Match(rest, path[j..]).None?
    decreases k
  {
    if Match(rest, path[k..]).Some? {
      assert MatchHole(n, rest, path, k).value == Match(rest, path[k..]).value[n := path[..k]];
    } else if k > 0 {
      MatchHoleSpec(n, rest, path, k - 1);
      if MatchHole(n, rest, path, k - 1).Some? {
        var j :| 0 <= j <= k - 1 && Match(rest, path[j..]).Some?
          && MatchHole(n, rest, path, k - 1).value == Match(rest, path[j..]).value[n := path[..j]]
          && forall i :: j < i <= k - 1 ==> Match(rest, path[i..]).None?;
        assert forall i :: j < i <= k ==> Match(rest, path[i..]).None?;
      }
    }
  }

  // ---------------------------------------------------------------------------
  // Tokenising is lossless and invertible
  // ---------------------------------------------------------------------------

  /** Writing the tokens back gives the template text unchanged. */
  lemma {:induction false} UnparseParse(url: string)
    ensures Unparse(Parse(url)) == url
    decreases |url|
  {
    if url != [] {
      forall k | 0 < k <= |url| ensures Unparse(Parse(url[k..])) == url[k..] {
        UnparseParse(url[k..]);
      }
      UnparseParseStep(url);
    }
  }

  /** One step of the round trip: if every proper suffix round-trips, so
      does the whole text. */
  lemma UnparseParseStep(url: string)
    requires url != []
    requires forall k :: 0 < k <= |url| ==> Unparse(Parse(url[k..])) == url[k..]
    ensures Unparse(Parse(url)) == url
  {
    if url[0] == '<' && CloseIndex(url[1..]).Some? {
      var j := CloseIndex(url[1..]).value;
      assert Unparse(Parse(url[j + 2..])) == url[j + 2..];
      UnparseParseOpen(url);
    } else {
      assert Unparse(Parse(url[1..])) == url[1..];
      UnparseParseChar(url);
    }
  }

  lemma UnparseParseOpen(url: string)
    requires url != [] && url[0] == '<' && CloseIndex(url[1..]).Some?
    requires var j := CloseIndex(url[1..]).value; Unparse(Parse(url[j + 2..])) == url[j + 2..]
    ensures Unparse(Parse(url)) == url
  {
    var w := url[1..];
    var j := CloseIndex(w).value;
    var name, after := w[..j], w[j + 1..];
    assert url == "<" + w;
    assert after == url[j + 2..];
    ParseOpen(w);
    UnparseHole(name, Parse(after));
    SplitAtClose(w, j);
    calc {
      Unparse(Parse(url));
      Unparse([Hole(name)] + Parse(after));
      "<" + (name + ">" + Unparse(Parse(after)));
      "<" + (name + ">" + after);
      url;
    }
  }

  /** A text is its part before index `j`, the `>` at `j`, and the rest. */
  lemma SplitAtClose(w: string, j: nat)
    requires j < |w| && w[j] == '>'
    ensures w == w[..j] + ">" + w[j + 1..]
  {
  }

  lemma UnparseParseChar(url: string)
    requires url != [] && !(url[0] == '<' && CloseIndex(url[1..]).Some?)
    requires Unparse(Parse(url[1..])) == url[1..]
    ensures Unparse(Parse(url)) == url
  {
    assert Parse(url) == [Char(url[0])] + Parse(url[1..]);
    UnparseChar(url[0], Parse(url[1..]));
    assert url == [url[0]] + url[1..];
  }

  lemma UnparseChar(c: char, rest: Template)
    ensures Unparse([Char(c)] + rest) == [c] + Unparse(rest)
  {
    var t := [Char(c)] + rest;
    assert t[0] == Char(c) && t[1..] == rest;
  }

  lemma UnparseHole(n: string, rest: Template)
    ensures Unparse([Hole(n)] + rest) == "<" + (n + ">" + Unparse(rest))
  {
    var t := [Hole(n)] + rest;
    assert t[0] == Hole(n) && t[1..] == rest;
  }

  /** Tokens that read back as themselves: no literal `<` (it could open a
      placeholder) and no `>` or newline inside a placeholder name. */
  predicate Tokenisable(t: Template) {
    forall i :: 0 <= i < |t| ==>
      match t[i]
      case Char(c) => c != '<'
      case Hole(n) => '>' !in n && '\n' !in n
  }

  lemma CloseIndexAfterName(n: string, rest: string)
    requires '>' !in n && '\n' !in n
    ensures CloseIndex(n + ">" + rest) == Some(|n|)
  {
    if n != [] {
      assert (n + ">" + rest)[1..] == n[1..] + ">" + rest;
      CloseIndexAfterName(n[1..], rest);
    }
  }

  /** Tokenising the written form of well-behaved tokens gives them back. */
  lemma {:induction false} ParseUnparse(t: Template)
    requires Tokenisable(t)
    ensures Parse(Unparse(t)) == t
  {
    if t != [] {
      TokenisableTail(t);
      ParseUnparse(t[1..]);
      match t[0]
      case Char(c) => ParseChar(c, t[1..]);
      case Hole(n) => ParseHole(n, t[1..]);
      assert [t[0]] + t[1..] == t;
    }
  }

  lemma TokenisableTail(t: Template)
    requires t != [] && Tokenisable(t)
    ensures Tokenisable(t[1..])
    ensures match t[0] case Char(c) => c != '<' case Hole(n) => '>' !in n && '\n' !in n
  {
    forall i | 0 <= i < |t[1..]|
      ensures match t[1..][i] case Char(c) => c != '<' case Hole(n) => '>' !in n && '\n' !in n
    {
      assert t[1..][i] == t[i + 1];
    }
  }

  /** One literal character other than `<` is read back as itself. */
  lemma ParseChar(c: char, rest: Template)
    requires c != '<' && Parse(Unparse(rest)) == rest
    ensures Parse(Unparse([Char(c)] + rest)) == [Char(c)] + rest
  {
    var t := [Char(c)] + rest;
    assert t[0] == Char(c) && t[1..] == rest;
    var u := Unparse(t);
    assert u == [c] + Unparse(rest);
    assert u[1..] == Unparse(rest);
  }

  /** One placeholder whose name has no `>` or newline is read back as itself. */
  lemma ParseHole(n: string, rest: Template)
    requires '>' !in n && '\n' !in n && Parse(Unparse(rest)) == rest
    ensures Parse(Unparse([Hole(n)] + rest)) == [Hole(n)] + rest
  {
    var w := n + ">" + Unparse(rest);
    UnparseHole(n, rest);
    CloseIndexAfterName(n, Unparse(rest));
    ParseOpen(w);
    assert w[..|n|] == n && w[|n| + 1..] == Unparse(rest);
  }

  /** A `<` closed within the text that follows opens a placeholder. */
  lemma ParseOpen(w: string)
    requires CloseIndex(w).Some?
    ensures var j := CloseIndex(w).value;
      Parse("<" + w) == [Hole(w[..j])] + Parse(w[j + 1..])
  {
    var u := "<" + w;
    var j := CloseIndex(w).value;
    assert u[0] == '<' && u[1..] == w;
    assert u[1..j + 1] == w[..j] && u[j + 2..] == w[j + 1..];
    calc {
      Parse(u);
      [Hole(u[1..j + 1])] + Parse(u[j + 2..]);
      [Hole(w[..j])] + Parse(w[j + 1..]);
    }
  }

  /** A valid group name never contains `>` or a newline. */
  lemma ValidNameTokenisable(n: string)
    requires ValidName(n)
    ensures '>' !in n && '\n' !in n
  {
    forall i | 0 <= i < |n| ensures n[i] != '>' && n[i] != '\n' {
      if i > 0 { assert IsIdentChar(n[i]); }
    }
  }

  lemma NamesMember(t: Template, i: nat)
    requires i < |t| && t[i].Hole?
    ensures t[i].name in Names(t)
  {
    if i > 0 { NamesMember(t[1..], i - 1); assert t[1..][i - 1] == t[i]; }
  }

  /** `Compile` accepts exactly the texts of well-formed templates: it returns
      the tokens of its input, and the text of a well-formed template without
      literal `<` compiles back to that template. */
  lemma {:induction false} CompileRoundTrip(url: string, t: Template)
    ensures Compile(url) == Some(t) ==> Unparse(t) == url
    ensures WellFormed(t) && (forall i :: 0 <= i < |t| ==> t[i] != Char('<')) ==> Compile(Unparse(t)) == Some(t)
  {
    UnparseParse(url);
    if WellFormed(t) && (forall i :: 0 <= i < |t| ==> t[i] != Char('<')) {
      forall i | 0 <= i < |t| && t[i].Hole? ensures '>' !in t[i].name && '\n' !in t[i].name {
        NamesMember(t, i);
        var k :| 0 <= k < |Names(t)| && Names(t)[k] == t[i].name;
        ValidNameTokenisable(Names(t)[k]);
      }
      ParseUnparse(t);
    }
  }

  // ---------------------------------------------------------------------------
  // What a match means
  // ---------------------------------------------------------------------------

  lemma DistinctTail(n: string, ns: seq<string>)
    requires Distinct([n] + ns)
    ensures Distinct(ns) && n !in ns
  {
    assert ([n] + ns)[0] == n;
    assert forall i :: 0 <= i < |ns| ==> ([n] + ns)[i + 1] == ns[i];
  }

  /** `Fill` only reads the captures of the template's own placeholders. */
  lemma {:induction false} FillAgrees(t: Template, a: Captures, b: Captures)
    requires forall n :: n in Names(t) ==> n in a && n in b && a[n] == b[n]
    ensures Fill(t, a) == Fill(t, b)
  {
    if t != [] {
      FillAgrees(t[1..], a, b);
    }
  }

  /** A successful match captures exactly the placeholder names, and putting
      every capture back into its placeholder rebuilds the path. */
  lemma {:induction false} MatchSound(t: Template, path: string)
    requires Distinct(Names(t))
    ensures Match(t, path).Some? ==>
      (forall n :: n in Match(t, path).value <==> n in Names(t))
      && Fill(t, Match(t, path).value) == path
    decreases |t|
  {
    if t != [] {
      match t[0]
      case Char(c) =>
        if path != [] && path[0] == c {
          MatchSound(t[1..], path[1..]);
        }
      case Hole(n) =>
        var rest := t[1..];
        assert t == [Hole(n)] + rest;
        DistinctTail(n, Names(rest));
        var r := MatchHole(n, rest, path, |path|);
        MatchHoleSpec(n, rest, path, |path|);
        if r.Some? {
          var j :| 0 <= j <= |path| && Match(rest, path[j..]).Some?
            && r.value == Match(rest, path[j..]).value[n := path[..j]]
            && forall i :: j < i <= |path| ==> Match(rest, path[i..]).None?;
          MatchSound(rest, path[j..]);
          SoundHole(n, rest, path, j);
        }
    }
  }

  /** The step of `MatchSound` for a leading placeholder that took `j`
      characters. */
  lemma SoundHole(n: string, rest: Template, path: string, j: nat)
    requires n !in Names(rest)
    requires j <= |path| && Match(rest, path[j..]).Some?
    requires var m := Match(rest, path[j..]).value;
      (forall x :: x in m <==> x in Names(rest)) && Fill(rest, m) == path[j..]
    ensures var caps := Match(rest, path[j..]).value[n := path[..j]];
      (forall x :: x in caps <==> x in Names([Hole(n)] + rest)) && Fill([Hole(n)] + rest, caps) == path
  {
    var m := Match(rest, path[j..]).value;
    var caps := m[n := path[..j]];
    var t := [Hole(n)] + rest;
    assert t[0] == Hole(n) && t[1..] == rest;
    FillAgrees(rest, m, caps);
    assert path == path[..j] + path[j..];
  }

  /** Every path obtained by filling the placeholders is matched. */
  lemma {:induction false} MatchComplete(t: Template, caps: Captures)
    requires forall n :: n in Names(t) ==> n in caps
    ensures Match(t, Fill(t, caps)).Some?
    decreases |t|
  {
    if t != [] {
      MatchComplete(t[1..], caps);
      var path := Fill(t, caps);
      match t[0]
      case Char(c) =>
        assert path[1..] == Fill(t[1..], caps);
      case Hole(n) =>
        var j := |caps[n]|;
        assert path[j..] == Fill(t[1..], caps);
        MatchHoleSpec(n, t[1..], path, |path|);
    }
  }

  /** Matching decides exactly whether the path is some filling of the template. */
  lemma MatchIff(t: Template, path: string)
    requires Distinct(Names(t))
    ensures Match(t, path).Some? <==>
      exists caps: Captures :: (forall n :: n in Names(t) ==> n in caps) && Fill(t, caps) == path
  {
    if Match(t, path).Some? {
      MatchSound(t, path);
    }
    forall caps: Captures | (forall n :: n in Names(t) ==> n in caps) && Fill(t, caps) == path
      ensures Match(t, path).Some?
    {
      MatchComplete(t, caps);
    }
  }

  /** Greediness: a leading placeholder captures the longest text after which
      the rest of the template still matches. */
  lemma MatchIsGreedy(n: string, rest: Template, path: string)
    requires Match([Hole(n)] + rest, path).Some?
    ensures n in Match([Hole(n)] + rest, path).value
    ensures var v := Match([Hole(n)] + rest, path).value[n];
      |v| <= |path| && v == path[..|v|]
      && forall k :: |v| < k <= |path| ==> Match(rest, path[k..]).None?
  {
    var t := [Hole(n)] + rest;
    assert t[0] == Hole(n) && t[1..] == rest;
    MatchHoleSpec(n, rest, path, |path|);
  }

  /** A template without placeholders matches its own text and nothing else,
      and then captures nothing. */
  lemma {:induction false} LiteralMatchesExactly(t: Template, path: string)
    requires Names(t) == []
    ensures Match(t, path).Some? <==> path == Unparse(t)
    ensures Match(t, path).Some? ==> Match(t, path).value == map[]
  {
    FillLiteral(t, map[]);
    if Match(t, path).Some? {
      MatchSound(t, path);
      FillLiteral(t, Match(t, path).value);
    }
    if path == Unparse(t) {
      MatchComplete(t, map[]);
    }
  }

  lemma {:induction false} FillLiteral(t: Template, caps: Captures)
    requires Names(t) == []
    ensures Fill(t, caps) == Unparse(t)
  {
    if t != [] {
      match t[0]
      case Char(c) => FillLiteral(t[1..], caps);
      case Hole(n) => assert false;
    }
  }

  // ---------------------------------------------------------------------------
  // Literal text and single placeholders
  // ---------------------------------------------------------------------------

  /** The template of a piece of literal text. */
  function Literal(s: string): (t: Template)
    ensures |t| == |s| && forall i :: 0 <= i < |s| ==> t[i] == Char(s[i])
  {
    if s == [] then [] else [Char(s[0])] + Literal(s[1..])
  }

  /** Writing out a concatenation writes out each part in turn. */
  lemma {:induction false} UnparseAppend(a: Template, b: Template)
    ensures Unparse(a + b) == Unparse(a) + Unparse(b)
    decreases |a|
  {
    if a != [] {
      var t := a[1..];
      assert a == [a[0]] + t;
      assert a + b == [a[0]] + (t + b);
      UnparseAppend(t, b);
      UnparseCons(a[0], t + b);
      UnparseCons(a[0], t);
    } else {
      assert a + b == b;
    }
  }

  /** The text of a template is its first segment's text followed by the rest's. */
  lemma UnparseCons(s: Segment, rest: Template)
    ensures Unparse([s] + rest) == Show(s) + Unparse(rest)
  {
    var t := [s] + rest;
    assert t[0] == s && t[1..] == rest;
  }

  /** Literal text writes back as itself. */
  lemma {:induction false} UnparseLiteral(s: string)
    ensures Unparse(Literal(s)) == s
    decreases |s|
  {
    if s != [] {
      var t := Literal(s);
      assert t[0] == Char(s[0]) && t[1..] == Literal(s[1..]);
      UnparseLiteral(s[1..]);
    }
  }

  /** The placeholders of a concatenation are those of each part in turn. */
  lemma {:induction false} NamesAppend(a: Template, b: Template)
    ensures Names(a + b) == Names(a) + Names(b)
    decreases |a|
  {
    if a != [] {
      assert (a + b)[0] == a[0] && (a + b)[1..] == a[1..] + b;
      NamesAppend(a[1..], b);
    } else {
      assert a + b == b;
    }
  }

  /** Literal text has no placeholders. */
  lemma {:induction false} NamesLiteral(s: string)
    ensures Names(Literal(s)) == []
    decreases |s|
  {
    if s != [] {
      var t := Literal(s);
      assert t[0] == Char(s[0]) && t[1..] == Literal(s[1..]);
      NamesLiteral(s[1..]);
    }
  }

  /** Text without `<` has no placeholders: it compiles to itself, literally. */
  lemma CompileLiteral(s: string)
    requires '<' !in s
    ensures Compile(s) == Some(Literal(s))
  {
    var t := Literal(s);
    NamesLiteral(s);
    UnparseLiteral(s);
    CompileRoundTrip(s, t);
  }

  /** Literal text consumes exactly itself from the front of the path. */
  lemma {:induction false} MatchLiteralPrefix(s: string, rest: Template, path: string)
    ensures Match(Literal(s) + rest, s + path) == Match(rest, path)
  {
    if s == [] {
      assert Literal(s) + rest == rest && s + path == path;
    } else {
      assert Literal(s) + rest == [Char(s[0])] + (Literal(s[1..]) + rest);
      assert s + path == [s[0]] + (s[1..] + path);
      MatchChar(s[0], Literal(s[1..]) + rest, s[1..] + path);
      MatchLiteralPrefix(s[1..], rest, path);
    }
  }

  /** A literal character consumes exactly the same character of the path. */
  lemma MatchChar(c: char, t: Template, path: string)
    ensures Match([Char(c)] + t, [c] + path) == Match(t, path)
  {
    assert ([Char(c)] + t)[0] == Char(c) && ([Char(c)] + t)[1..] == t;
    assert ([c] + path)[0] == c && ([c] + path)[1..] == path;
  }

  /** A trailing placeholder captures everything that is left. */
  lemma MatchLastHole(n: string, path: string)
    ensures Match([Hole(n)], path) == Some(map[n := path])
  {
    var t := [Hole(n)];
    assert t[1..] == [];
    assert path[|path|..] == [] && path[..|path|] == path;
    assert Match([], path[|path|..]) == Some(map[]);
    assert MatchHole(n, [], path, |path|) == Some(map[][n := path]);
  }

  /** The converse of greediness: the longest split after which the rest
      matches is the one the leading placeholder takes. */
  lemma HoleTakesLongest(n: string, rest: Template, path: string, j: nat)
    requires j <= |path| && Match(rest, path[j..]).Some?
    requires forall i :: j < i <= |path| ==> Match(rest, path[i..]).None?
    ensures Match([Hole(n)] + rest, path) == Some(Match(rest, path[j..]).value[n := path[..j]])
  {
    assert ([Hole(n)] + rest)[1..] == rest;
    MatchHoleSpec(n, rest, path, |path|);
    var r := MatchHole(n, rest, path, |path|);
    assert r.Some?;
    var k :| 0 <= k <= |path| && Match(rest, path[k..]).Some?
      && r.value == Match(rest, path[k..]).value[n := path[..k]]
      && forall i :: k < i <= |path| ==> Match(rest, path[i..]).None?;
    assert k == j;
  }
}

=== FILE: unit_cases.dfy ===
/**
 The behaviour the repository's unit tests pin down, proved of the model.
 */
module UnitCases {
  import opened Wrappers
  import opened Template
  import opened Routing
  import opened Naming
  import opened Registry
  import opened Binding
  import opened Mutation
  import opened AppContainer

  // ---------------------------------------------------------------------------
  // Templates
  // ---------------------------------------------------------------------------

  /** `"/<test>"` compiles to a slash followed by one placeholder. */
  lemma CompileSingleHole()
    ensures Compile("/<test>") == Some(SingleHole())
  {
    ParseSingleHole();
    WellFormedSingleHole();
    CompileOf("/<test>", SingleHole());
  }

  function SingleHole(): Template {
    [Char('/'), Hole("test")]
  }

  lemma ParseSingleHole()
    ensures Parse("/<test>") == SingleHole()
  {
    var t := SingleHole();
    assert Unparse(t) == "/<test>";
    ParseUnparse(t);
  }

  lemma WellFormedSingleHole()
    ensures WellFormed(SingleHole())
  {
    assert Names(SingleHole()) == ["test"];
    assert ValidName("test");
  }

  /** A template that tokenises and is well formed is what `url` compiles to. */
  lemma CompileOf(url: string, t: Template)
    requires Parse(url) == t && WellFormed(t)
    ensures Compile(url) == Some(t)
  {
  }

  /** `"/<test>"` captures the text after the slash. */
  lemma SingleHoleCaptures()
    ensures Match(SingleHole(), "/something_here") == Some(map["test" := "something_here"])
  {
    MatchLiteralPrefix("/", [Hole("test")], "something_here");
    assert Literal("/") + [Hole("test")] == SingleHole();
    assert "/" + "something_here" == "/something_here";
    MatchLastHole("test", "something_here");
  }

  /** `"/<test>"` does not match `"nope"`, which lacks the leading slash. */
  lemma SingleHoleRejectsNope()
    ensures Match(SingleHole(), "nope").None?
  {
  }

  /** Text that does not start with `c` cannot match a template that does. */
  lemma CharMismatch(c: char, t: Template, s: string)
    requires s == [] || s[0] != c
    ensures Match([Char(c)] + t, s).None?
  {
    assert ([Char(c)] + t)[0] == Char(c);
  }

  /** What `"/<one>/and/<two>"` compiles to. */
  function TwoHoles(): Template {
    [Char('/')] + ([Hole("one")] + TwoHolesRest())
  }

  function TwoHolesRest(): Template {
    Literal("/and/") + [Hole("two")]
  }

  lemma UnparseTwoHoles()
    ensures Unparse(TwoHoles()) == "/<one>/and/<two>"
  {
    var tail := [Hole("one")] + TwoHolesRest();
    UnparseChar('/', tail);
    UnparseOneThenRest();
    SlashOneAndTwo();
  }

  lemma UnparseOneThenRest()
    ensures Unparse([Hole("one")] + TwoHolesRest()) == "<one>/and/<two>"
  {
    UnparseHole("one", TwoHolesRest());
    UnparseTwoHolesRest();
    OneThenRestText();
  }

  lemma UnparseTwoHolesRest()
    ensures Unparse(TwoHolesRest()) == "/and/<two>"
  {
    UnparseLiteralThenHole("/and/", "two");
    AndTwoText();
  }

  /** A literal followed by one placeholder prints as the literal text and
      the placeholder's name in angle brackets. */
  lemma UnparseLiteralThenHole(s: string, n: string)
    ensures Unparse(Literal(s) + [Hole(n)]) == s + ("<" + (n + ">"))
  {
    UnparseAppend(Literal(s), [Hole(n)]);
    UnparseLiteral(s);
    UnparseHole(n, []);
    assert [Hole(n)] + [] == [Hole(n)];
    assert "<" + (n + ">" + Unparse([])) == "<" + (n + ">");
  }

  lemma ParseTwoHoles()
    ensures Parse("/<one>/and/<two>") == TwoHoles()
  {
    UnparseTwoHoles();
    TokenisableTwoHoles();
    ParseUnparse(TwoHoles());
  }

  lemma TokenisableTwoHoles()
    ensures Tokenisable(TwoHoles())
  {
    var t := TwoHoles();
    forall i | 0 <= i < |t|
      ensures match t[i] case Char(c) => c != '<' case Hole(n) => '>' !in n && '\n' !in n
    {
      if i == 1 || i == |t| - 1 {
        assert t[i] == Hole("one") || t[i] == Hole("two");
      } else {
        assert t[i].Char? && t[i].c != '<';
      }
    }
  }

  lemma NamesTwoHoles()
    ensures Names(TwoHoles()) == ["one", "two"]
  {
    NamesAppend([Char('/')], [Hole("one")] + TwoHolesRest());
    NamesAppend([Hole("one")], TwoHolesRest());
    NamesAppend(Literal("/and/"), [Hole("two")]);
    NamesLiteral("/and/");
    assert Names([Char('/')]) == [];
    assert Names([Hole("one")]) == ["one"];
    assert Names([Hole("two")]) == ["two"];
  }

  lemma WellFormedTwoHoles()
    ensures WellFormed(TwoHoles())
  {
    NamesTwoHoles();
    assert ValidName("one") && ValidName("two");
  }

  /** `"/<one>/and/<two>"` compiles to two placeholders around `"/and/"`. */
  lemma CompileTwoHoles()
    ensures Compile("/<one>/and/<two>") == Some(TwoHoles())
  {
    ParseTwoHoles();
    WellFormedTwoHoles();
    CompileOf("/<one>/and/<two>", TwoHoles());
  }

  lemma TwoHolesRestMatches()
    ensures Match(TwoHolesRest(), "/and/ted") == Some(map["two" := "ted"])
  {
    MatchLiteralPrefix("/and/", [Hole("two")], "ted");
    assert "/and/" + "ted" == "/and/ted";
    MatchLastHole("two", "ted");
  }

  /** No split of `"bill/and/ted"` after the fifth character leaves a suffix
      starting with `"/a"`. */
  lemma TwoHolesNoLaterSplit(i: nat)
    requires 4 < i <= |"bill/and/ted"|
    ensures Match(TwoHolesRest(), "bill/and/ted"[i..]).None?
  {
    var p := "bill/and/ted";
    var rest := TwoHolesRest();
    assert rest == [Char('/')] + rest[1..];
    if i == 8 {
      assert p[i..] == "/ted";
      assert rest[1..] == [Char('a')] + rest[2..];
      CharMismatch('a', rest[2..], "ted");
    } else {
      CharMismatch('/', rest[1..], p[i..]);
    }
  }

  /** After the leading slash, the placeholder `one` takes `"bill"`. */
  lemma TwoHolesAfterSlash()
    ensures Match([Hole("one")] + TwoHolesRest(), "bill/and/ted") == Some(map["two" := "ted"]["one" := "bill"])
  {
    var p := "bill/and/ted";
    var rest := TwoHolesRest();
    assert p[4..] == "/and/ted" && p[..4] == "bill";
    TwoHolesRestMatches();
    forall i | 4 < i <= |p|
      ensures Match(rest, p[i..]).None?
    {
      TwoHolesNoLaterSplit(i);
    }
    HoleTakesLongest("one", rest, p, 4);
  }

  /** `"/<one>/and/<two>"` binds both placeholders of `"/bill/and/ted"`. */
  lemma TwoHolesCapture()
    ensures Match(TwoHoles(), "/bill/and/ted") == Some(map["one" := "bill", "two" := "ted"])
  {
    var p := "bill/and/ted";
    var tail := [Hole("one")] + TwoHolesRest();
    SlashThen(tail, p);
    assert "/" + p == "/bill/and/ted";
    TwoHolesAfterSlash();
    assert map["two" := "ted"]["one" := "bill"] == map["one" := "bill", "two" := "ted"];
  }

  lemma SlashThen(tail: Template, p: string)
    ensures Match([Char('/')] + tail, "/" + p) == Match(tail, p)
  {
    MatchLiteralPrefix("/", tail, p);
    assert Literal("/") == [Char('/')];
  }

  // ---------------------------------------------------------------------------
  // Routes
  // ---------------------------------------------------------------------------

  /** A template without placeholders matches its own text. */
  lemma LiteralRouteMatchesItself()
    ensures NewRoute<string>("/testing/", None, None).Some?
    ensures HandlesRoute(NewRoute<string>("/testing/", None, None).value, "/testing/", "GET")
  {
    LiteralRoute<string>("/testing/", None, None, "/testing/", "GET");
  }

  /** The anchored pattern of `"/"` turns a longer path away. */
  lemma RootRejectsLongerPath()
    ensures NewRoute<string>("/", None, None).Some?
    ensures !HandlesRoute(NewRoute<string>("/", None, None).value, "/NB2HI4B2F4XWO33PM5WGKLTDN5WQ====", "GET")
  {
    LiteralRoute<string>("/", None, None, "/NB2HI4B2F4XWO33PM5WGKLTDN5WQ====", "GET");
  }

  /** A literal route turns away a path that differs from it. */
  lemma LiteralRouteRejectsOther()
    ensures NewRoute<string>("/test", None, None).Some?
    ensures !HandlesRoute(NewRoute<string>("/test", None, None).value, "/nottest", "GET")
  {
    LiteralRoute<string>("/test", None, None, "/nottest", "GET");
  }

  /** A route declared for POST alone turns a GET away. */
  lemma PostOnlyRejectsGet()
    ensures NewRoute<string>("/test", None, Some(["POST"])).Some?
    ensures !HandlesRoute(NewRoute<string>("/test", None, Some(["POST"])).value, "/test", "GET")
  {
    LiteralRoute<string>("/test", None, Some(["POST"]), "/test", "GET");
  }

  /** A route whose callback is missing raises `AttributeError` on handle. */
  lemma MissingCallbackRaises()
    ensures NewRoute<string>("/<test>", None, None).Some?
    ensures Handle(NewRoute<string>("/<test>", None, None).value, "/foo") == Err(AttributeError)
  {
    CompileSingleHole();
  }

  /** A route with a callback binds the captures it is called with. */
  lemma CallbackReceivesCapture()
    ensures NewRoute("/<test>", Some("test"), None).Some?
    ensures Handle(NewRoute("/<test>", Some("test"), None).value, "/foo") == Ok(Bound("test", map["test" := "foo"]))
  {
    CompileSingleHole();
    SlashThen([Hole("test")], "foo");
    assert [Char('/')] + [Hole("test")] == SingleHole();
    assert "/" + "foo" == "/foo";
    MatchLastHole("test", "foo");
  }

  /** An empty router matches nothing. */
  lemma EmptyRouterMatchesNothing(path: string, verb: string)
    ensures RouterMatch<string>(Router([]), path, verb).None?
  {
  }

  // ---------------------------------------------------------------------------
  // Parameters
  // ---------------------------------------------------------------------------

  function EmptyRequest(): Request {
    Request("/", "GET", map[], map[], map[])
  }

  /** A default `AppContainer` reads `get__` names from the query string. */
  lemma DefaultGetProvider()
    ensures "get" in ProviderTable(DefaultApp().providers)
    ensures ProviderTable(DefaultApp().providers)["get"] == GetProvider()
  {
    var ps := DefaultApp().providers;
    assert ps[0].prefix == "post" && ps[1].prefix == "get" && ps[2].prefix == "cookie";
    ProviderTableAt(ps, 1);
  }

  /** A default `AppContainer` reads `post__` names from the form. */
  lemma DefaultPostProvider()
    ensures "post" in ProviderTable(DefaultApp().providers)
    ensures ProviderTable(DefaultApp().providers)["post"] == PostProvider()
  {
    var ps := DefaultApp().providers;
    assert ps[0].prefix == "post" && ps[1].prefix == "get" && ps[2].prefix == "cookie";
    ProviderTableAt(ps, 0);
  }

  lemma SplitGetFoo()
    ensures SplitFirst("get__foo") == Some(("get", "foo"))
  {
    SplitJoin("get", "foo");
    GetFooText();
  }

  lemma SplitPostFoo()
    ensures SplitFirst("post__foo") == Some(("post", "foo"))
  {
    SplitJoin("post", "foo");
    PostFooText();
  }

  /** The default `get` provider reads the query string and nothing else. */
  lemma GetReads(req: Request)
    ensures "get" in ProviderTable(DefaultApp().providers)
    ensures ProviderTable(DefaultApp().providers)["get"].getValue(req, "foo") == Lookup(req.args, "foo")
  {
    DefaultGetProvider();
  }

  /** `get__foo` is bound from the query string. */
  lemma GetParamBound()
    ensures ExtractParams(DefaultApp().providers, {"get__foo"}, {}, EmptyRequest().(args := map["foo" := "bar"]))
      == map["get__foo" := Some("bar")]
  {
    var req := EmptyRequest().(args := map["foo" := "bar"]);
    GetReads(req);
    SplitGetFoo();
    ExtractSingle(DefaultApp().providers, "get__foo", {}, req, "get", "foo");
  }

  /** The default `post` provider reads the form body and nothing else. */
  lemma PostReads(req: Request)
    ensures "post" in ProviderTable(DefaultApp().providers)
    ensures ProviderTable(DefaultApp().providers)["post"].getValue(req, "foo") == Lookup(req.form, "foo")
  {
    DefaultPostProvider();
  }

  /** `post__foo` is bound from the form body. */
  lemma PostParamBound()
    ensures ExtractParams(DefaultApp().providers, {"post__foo"}, {}, EmptyRequest().(form := map["foo" := "bar"]))
      == map["post__foo" := Some("bar")]
  {
    var req := EmptyRequest().(form := map["foo" := "bar"]);
    PostReads(req);
    SplitPostFoo();
    ExtractSingle(DefaultApp().providers, "post__foo", {}, req, "post", "foo");
  }

  /** `post__foo` never reads the query string: it is bound to `None`. */
  lemma PostParamIgnoresQuery()
    ensures ExtractParams(DefaultApp().providers, {"post__foo"}, {}, EmptyRequest().(args := map["foo" := "bar"]))
      == map["post__foo" := None]
  {
    var req := EmptyRequest().(args := map["foo" := "bar"]);
    PostReads(req);
    SplitPostFoo();
    ExtractSingle(DefaultApp().providers, "post__foo", {}, req, "post", "foo");
  }

  /** Neither `self`, a name without `__`, nor one whose prefix names no
      provider is bound. */
  lemma UnprefixedParamsIgnored()
    ensures ExtractParams(DefaultApp().providers, {"self", "something", "something__here"}, {}, EmptyRequest()) == map[]
  {
    NothingBound({"self", "something", "something__here"});
  }

  lemma NothingBound(sig: set<string>)
    requires sig == {"self", "something", "something__here"}
    ensures ExtractParams(DefaultApp().providers, sig, {}, EmptyRequest()) == map[]
  {
    forall p | p in sig && p !in {} && p != "self"
      ensures SplitFirst(p).None? || SplitFirst(p).value.0 !in ProviderTable(DefaultApp().providers)
    {
      Unbindable(p);
    }
    ExtractNothing(DefaultApp().providers, sig, {}, EmptyRequest());
  }

  lemma Unbindable(p: string)
    requires p in {"self", "something", "something__here"} && p != "self"
    ensures SplitFirst(p).None? || SplitFirst(p).value.0 !in ProviderTable(DefaultApp().providers)
  {
    assert p == "something" || p == "something__here";
    SplitSomething();
    SomethingUnregistered();
  }

  lemma SplitSomething()
    ensures SplitFirst("something").None?
    ensures SplitFirst("something__here") == Some(("something", "here"))
  {
    assert forall i :: !SepAt("something", i);
    SplitJoin("something", "here");
    SomethingHereText();
  }

  lemma SomethingUnregistered()
    ensures "something" !in ProviderTable(DefaultApp().providers)
  {
    var ps := DefaultApp().providers;
    assert ps[0].prefix == "post" && ps[1].prefix == "get" && ps[2].prefix == "cookie";
    NotADefaultPrefix();
    ProviderTableMissing(ps, "something");
  }

  lemma NotADefaultPrefix()
    ensures "something" != "post" && "something" != "get" && "something" != "cookie"
  {
  }

  // ---------------------------------------------------------------------------
  // Consumers
  // ---------------------------------------------------------------------------

  lemma DefaultConsumers()
    ensures ConsumerTable(DefaultApp().consumers).Keys == {"cookie"}
    ensures ConsumerTable(DefaultApp().consumers)["cookie"] == CookieHandlerConsumer(DEFAULT_COOKIE_NAME)
  {
    CookieTable(DEFAULT_COOKIE_NAME);
  }

  lemma SplitCookieToken()
    ensures SplitFirst("cookie__token") == Some(("cookie", "token"))
    ensures SplitFirst("url").None?
  {
    SplitJoin("cookie", "token");
    CookieTokenText();
    assert forall i :: !SepAt("url", i);
  }

  /** A `cookie__token` entry with a value is removed from the body and sets
      the handler's own cookie; other entries stay in the body. */
  lemma CookieDirectiveSetsOwnCookie()
    ensures ApplyConsumerMutations(DefaultApp().consumers, [("cookie__token", Some("abc")), ("url", Some("/x"))])
         == ([("url", Some("/x"))], map[DEFAULT_COOKIE_NAME := SetTo("abc")])
  {
    var table := ConsumerTable(DefaultApp().consumers);
    var d: seq<Entry> := [("cookie__token", Some("abc")), ("url", Some("/x"))];
    var set1 := map[DEFAULT_COOKIE_NAME := SetTo("abc")];
    CookieTokenConsumed(d[1..]);
    assert d == [("cookie__token", Some("abc"))] + d[1..];
    assert Mutate(table, d, map[]) == Mutate(table, d[1..], set1);
    UrlKept(set1);
  }

  /** The leading `cookie__token` entry hands `"abc"` to the cookie handler. */
  lemma CookieTokenConsumed(rest: seq<Entry>)
    ensures var table := ConsumerTable(DefaultApp().consumers);
      Mutate(table, [("cookie__token", Some("abc"))] + rest, map[])
        == Mutate(table, rest, map[DEFAULT_COOKIE_NAME := SetTo("abc")])
  {
    SplitCookieToken();
    CookieConsumerClaims("cookie__token");
    DefaultCookieSets();
    MutateConsumes(ConsumerTable(DefaultApp().consumers), ("cookie__token", Some("abc")), rest, map[]);
  }

  lemma CookieConsumerClaims(key: string)
    requires SplitFirst(key).Some? && SplitFirst(key).value.0 == "cookie"
    ensures Consumed(ConsumerTable(DefaultApp().consumers), key)
  {
    DefaultConsumers();
  }

  /** The default cookie handler sets its own cookie for `cookie__token`. */
  lemma DefaultCookieSets()
    ensures "cookie" in ConsumerTable(DefaultApp().consumers)
    ensures ConsumerTable(DefaultApp().consumers)["cookie"].setValue(map[], "token", Some("abc"))
         == map[DEFAULT_COOKIE_NAME := SetTo("abc")]
  {
    DefaultConsumers();
  }

  /** The default cookie handler deletes `token` for `cookie__token` = `None`. */
  lemma DefaultCookieDeletes()
    ensures "cookie" in ConsumerTable(DefaultApp().consumers)
    ensures ConsumerTable(DefaultApp().consumers)["cookie"].setValue(map[], "token", None) == map["token" := Deleted]
  {
    DefaultConsumers();
  }

  /** An entry without `__` stays in the body. */
  lemma UrlKept(cookies: Cookies)
    ensures Mutate(ConsumerTable(DefaultApp().consumers), [("url", Some("/x"))], cookies) == ([("url", Some("/x"))], cookies)
  {
    SplitCookieToken();
    MutateKeeps(ConsumerTable(DefaultApp().consumers), ("url", Some("/x")), [], cookies);
    assert [("url", Some("/x"))] + [] == [("url", Some("/x"))];
  }

  /** A `cookie__token` entry with `None` deletes the cookie `token`. */
  lemma CookieDirectiveDeletes()
    ensures ApplyConsumerMutations(DefaultApp().consumers, [("cookie__token", None)])
         == ([], map["token" := Deleted])
  {
    var table := ConsumerTable(DefaultApp().consumers);
    SplitCookieToken();
    CookieConsumerClaims("cookie__token");
    DefaultCookieDeletes();
    var d: seq<Entry> := [("cookie__token", None)];
    MutateConsumes(table, d[0], [], map[]);
    assert [d[0]] + [] == d;
  }

  // ---------------------------------------------------------------------------
  // Facts about string literals
  //
  // Each equation between concatenated literals sits in a lemma of its own:
  // proved inside a larger proof, the same comparison costs the solver many
  // times more, because the other facts in scope compete for its attention.
  // ---------------------------------------------------------------------------

  lemma SlashOneAndTwo()
    ensures ['/'] + "<one>/and/<two>" == "/<one>/and/<two>"
  {
  }

  lemma OneThenRestText()
    ensures "<" + ("one" + ">" + "/and/<two>") == "<one>/and/<two>"
  {
  }

  lemma AndTwoText()
    ensures "/and/" + ("<" + ("two" + ">")) == "/and/<two>"
  {
  }

  lemma GetFooText()
    ensures "get" + "__" + "foo" == "get__foo"
  {
  }

  lemma PostFooText()
    ensures "post" + "__" + "foo" == "post__foo"
  {
  }

  lemma SomethingHereText()
    ensures "something" + "__" + "here" == "something__here"
  {
  }

  lemma CookieTokenText()
    ensures "cookie" + "__" + "token" == "cookie__token"
  {
  }
}

=== FILE: wrappers.dfy ===
/** Small failure-carrying datatypes shared by the routing model. */
module Wrappers {

  /** A value that may be missing; `None` plays the part of Python's `None`. */
  datatype Option<+T> = None | Some(value: T)

  /** The outcome of an operation that may raise. */
  datatype Result<+T, +E> = Ok(value: T) | Err(error: E)
}
